=== FILE: README.md ===
# matrix_solver relaxation engine, modelled in Dafny

matrix_solver fills a grid with path lengths to a destination cell. The
grid has `rows + 2` rows of `cols + 2` entries: a border ring around a
`rows` x `cols` interior. The destination holds 0. Blocked cells and the
border hold `rows*cols + 2` or more. Every empty cell starts at the
sentinel `rows*cols + 1`. Each empty cell that can reach the destination
is given the length of a path out of it, and, in solver-003, a compass tag
naming the neighbour that path goes through. Cells cut off from the
destination, alone or as a group behind walls, keep the sentinel.

The engine relaxes the grid in place. A sweep (`update_matrix`) visits the
interior in row-major order. At each cell the policy selects, it applies
an adjacency rule: the new value is the minimum of the cell's own value
and each neighbour's value plus one. A cell therefore already sees the
new values of the cells visited before it in the same sweep. `main` sweeps
until a sweep rewrites no value, starting from a change count of 999.

The two versions differ in two ways:

- solver-003 recomputes every cell that is not blocked (value at most
  `rows*cols + 1`) and records direction tags.
- solver-001 recomputes only cells still holding the sentinel and keeps
  no tags.

Both use the king rule (8 neighbours). The rook rule (4 neighbours) is
present in both files but not called. The model has both rules and both
policies as parameters of one engine.

Modules:

- `Grid`: the matrix and direction types, the shape predicate, the
  dimension checks of both versions, and the empty direction matrix.
- `NeighbourRules`: both rules as a fold over probes. Each probe compares
  one neighbour with the running minimum and, when it fires, records that
  probe's tag.
- `Sweep`: one sweep, given a relational specification (`Swept`). Each
  cell's result is the rule applied to the "view" the sweep had there.
  Visited cells show their new values; the rest show their old ones.
- `SweepFacts`: what a sweep preserves and decides.
- `Walls`: groups of cells cut off from the destination.
- `Settle`: every lowered cell is one more than a rule neighbour.
- `Measure`: the quantities that make the loop terminate.
- `Solve`: the loop of `main` and the argument checks before it.

The rook rule's north and south tests compare `v < best` rather than
`v + 1 < best` (solver-003.py:129, 136). So on a tie with the current
value they record N or S without changing the value. The model keeps
this behaviour as written: the `Loose` probe test, and
`RookTagsNorthOnTie`. The values are unaffected.

## Model

| member | source | states |
|---|---|---|
| Grid.ValidateDimensions | solver-003.py:71-89 | `validate_dimensions` accepts exactly the grids with `rows + 2` rows of `cols + 2` entries each. Its early `break` at the first bad row changes nothing. |
| Grid.ValidateDimensionsNoBreak | solver-001.py:46-63 | The version without `break` accepts exactly the same grids. The flag in the loop guard stops it at the first bad row. |
| Grid.InitPathDirections | solver-003.py:53-68 | The direction matrix has the grid's row count and row lengths, and every entry is empty (`''`, here `NoDir`). |
| NeighbourRules.ScanStrict | solver-003.py:104-110 | A scan of strict probes yields the minimum of the start value and every probed neighbour plus one. The tag is kept when nothing fired. Otherwise it is the tag of the first probe attaining the minimum, since a later tie does not fire. |
| NeighbourRules.KingMinSpec | solver-003.py:92-112 | About `KingMin`, the model of `min_adjacent_w_diagonals`: the king rule's value is the minimum over the cell and its 8 neighbours plus one. When the value dropped, the tag is the first of NW, N, NE, W, E, SW, S, SE attaining it, and that neighbour plus one equals the value. Otherwise the tag is untouched. The cell's own probe never fires. |
| NeighbourRules.RookMinSpec | solver-003.py:115-140 | About `RookMin`, the model of `min_adjacent_wo_diagonals`: the rook rule's value is the minimum over the cell and N, W, E, S plus one. On ties S wins, then N (loose tests), then W before E. N or S is recorded even on a tie with the unchanged value. Otherwise the tag is kept. |
| NeighbourRules.MinAdjacent | solver-003.py:103-112 | Either rule's result: the neighbour minimum, with either the cell's own value and tag unchanged or a rule neighbour whose value plus one is the result. A lower value always comes with a rule neighbour's tag. |
| NeighbourRules.MinAdjacentValue | solver-001.py:77-119 | solver-001's tag-free rule returns the neighbour minimum. |
| NeighbourRules.NeighbourMinUnique | solver-001.py:88-95 | The neighbour minimum is unique, so any rule computing it agrees on the value. |
| NeighbourRules.ValueIgnoresTag | solver-003.py:103-112 | The tag a cell carries is only written by the rule, never read: the new value does not depend on it. |
| NeighbourRules.RookIgnoresDiagonals | solver-003.py:115-140 | The rook rule reads only the cell and its N, W, E, S neighbours. Grids agreeing there give the same value and tag. |
| NeighbourRules.RookTagsNorthOnTie | solver-003.py:129-131 | In a 2x1 grid holding the destination and, below it, a cell at 1 (sentinel 3, walls 4), that cell is not blocked. The rook rule keeps its 1 but tags it N. The king rule leaves it untagged. |
| Sweep.RelaxCell | solver-003.py:157-161 | One cell step. If the policy selects the cell, it stores the rule's tag, and also the rule's value when that differs. Otherwise it changes nothing. Every other cell is untouched, and it reports whether the value changed. |
| Sweep.SweepRow | solver-003.py:156-161 | The inner loop over one row extends the row-major progress of the sweep by that row. Every visited cell is swept on its view, and the count matches the rewritten cells so far. |
| Sweep.UpdateMatrix | solver-003.py:143-163 | The sweep meets `Swept`. Every selected cell gets the rule's result on the view the in-place sweep had on reaching it. Every other cell keeps its value and tag. The returned count is the number of interior cells whose value differs. |
| SweepFacts.SweptMonotone | solver-003.py:157-160 | A sweep never raises a value. Border, blocked and unselected cells keep value and tag. Every rewritten cell strictly decreased. |
| SweepFacts.SweptKeepsLowerBound | solver-003.py:104-110 | Any lower bound of the grid before a sweep is one after it. New values are old values, or neighbours plus one, reached in sweep order. |
| SweepFacts.QuietSweepIsStable | solver-003.py:143-147 | A sweep that counts no change leaves the grid as it was. Every selected cell is then within one of each neighbour. |
| SweepFacts.StableSweepIsQuiet | solver-003.py:143-147 | Conversely, a sweep over a stable grid rewrites nothing and counts 0. |
| SweepFacts.SweptUnique | solver-003.py:155-161 | The sweep's result is determined: two outcomes of one sweep from the same grid and tags are equal, count included. |
| SweepFacts.SweptValuesIgnoreTags | solver-001.py:122-138 | Values and change count of a sweep do not depend on the tags it starts from. So solver-001, which has no tags, computes what the tagged engine computes. |
| SweepFacts.SweptIsTagFree | solver-001.py:130-136 | Every cell a sweep selects gets the value of solver-001's tag-free rule (`MinAdjacentValue`) on its view, whatever tag it carried. |
| SweepFacts.SweptKeepsTagsConsistent | solver-003.py:108-110 | After a sweep, every tag still names a rule neighbour at least one step closer, on a cell that is not blocked. |
| SweepFacts.SweptKeepsTagged | solver-003.py:108-110 | After a sweep, every interior cell whose value is below its starting value carries a tag naming a rule neighbour. A tag is written whenever a value drops. |
| SweepFacts.ConvergedTagsExact | solver-003.py:299-303 | Once the loop under solver-003's policy has stopped, each tagged cell is exactly one more than the neighbour its tag names. |
| SweepFacts.SweptKeepsEnclosed | solver-003.py:274-275 | A single cell whose every rule neighbour is blocked keeps its value through a sweep, whatever that value is, and stays walled in. |
| Walls.SweptKeepsWalled | solver-003.py:274-275 | A group of interior cells at the sentinel or above, each of whose rule neighbours is in the group or blocked, keeps all its values through a sweep and stays walled off. |
| Walls.CutOffNotEnclosed | solver-001.py:151-152 | In the row `0 wall empty empty`, neither empty cell is walled in on its own, because each sees the other. |
| Walls.CutOffWalled | solver-001.py:151-152 | The same two cells form a walled-off group, so they keep the sentinel for the whole run. |
| SweepFacts.InPlaceSweep | solver-003.py:155-161 | In the one-row grid `0 4 4` (interior), a single sweep gives `0 1 2`, tags W, W and count 2. The third cell sees the second's new value. |
| Settle.SweptKeepsWitnessed | solver-001.py:130-136 | Under solver-001's policy, every cell below its start value after a sweep is exactly one more than some rule neighbour. A settled cell and the neighbour it was settled from are below the sentinel, so they are never recomputed. |
| Measure.SweptLowersExcess | solver-003.py:299-303 | The sum of values above the grid's lower bound never grows in a sweep, and strictly drops when the sweep counted a change. This measure makes the loop terminate. |
| Measure.SweptSettlesEmpties | solver-001.py:130-136 | Under solver-001's policy, the rewritten cells are exactly the sentinel cells that left the sentinel. The count equals the number of sentinel cells settled. |
| Solve.SweepKeepsInvariant | solver-003.py:268-275 | One sweep keeps the run invariant. Values stay at or below the start and above every start lower bound. Frozen cells, walled-in cells and walled-off groups keep their start values. Tags stay consistent, and every lowered cell is tagged. Under solver-001's policy every lowered cell is one more than a rule neighbour. |
| Solve.Solve | solver-003.py:294-303 | The loop terminates with a stable grid. No value has risen and lower bounds hold. Blocked, border, unselected and walled-in cells, and every walled-off group, keep their start values. Tags are consistent, and every cell whose value dropped is tagged with a rule neighbour and is exactly one more than some rule neighbour. It runs at least one sweep; under solver-003's policy tags are exact, and under solver-001's at most one more sweep than there were sentinel cells. Its ghost record is the whole run (`RunOf`): the input with empty tags, then one `Swept` step per sweep, every sweep but the last counting a change, ending in the result. |
| Solve.RunUnique | solver-001.py:172-173 | The loop that sweeps while the last sweep counted a change has exactly one run from a given grid: each sweep's outcome is determined, and stopping at the first zero count fixes the number of sweeps. So the loop's result, tags and sweep count are determined by the input. |
| Solve.RunSolver003 | solver-003.py:286-303 | solver-003's `main`: non-positive dimensions, then a misshapen grid, are reported (in that order). Otherwise the grid is solved with the king rule. The result is stable and no higher than the input. Blocked, border and walled-off cells keep their values with no tag. Every lowered cell is tagged, and each tag is exactly one step: the named neighbour is one less. The result is the end of the run of sweeps from the input (`RunOf`). |
| Solve.OpenSquareCorner | solver-001.py:130-136 | On the open 2x2 grid with the destination top-left, every run of solver-001's loop ends with the far corner at 1 or less. The first sweep settles it diagonally from the destination, and later sweeps only lower values. So `0 1 / 1 2` is not a result of `RunSolver001`. |
| Solve.RunSolver001 | solver-001.py:163-176 | solver-001's `main`: the same two errors. Otherwise sentinel-only relaxation gives a stable grid no higher than the input and no lower than its minimum. The destination, blocked cells, the border, every cell not at the sentinel and every walled-off group keep their values. Every lowered cell is exactly one more than some king neighbour. It takes between 1 and (sentinel cells + 1) sweeps. The result is the end of the run of sentinel-only sweeps from the input (`RunOf`), so by `RunUnique` it is the one grid solver-001 computes. |

## Left out

- `get_dimensions`, `fill_matrix_from_file` and the `len(argv) != 4` usage check: argument parsing and file I/O. The model starts from parsed integers and a parsed grid.
- HTML/SVG rendering, `pretty_print_matrix` and all printing: output only, no effect on the computed grid.
- `perf_counter` timing: a clock, not modelled.
- In-place mutation of the Python lists is modelled by threading immutable grids through the methods. `update_matrix` mutating its arguments becomes returning the new grid and tags.
- The adjacency rule is a parameter. Both versions hard-wire the king rule, so `RunSolver003` and `RunSolver001` pass `King`. The rook rule is covered by the generic lemmas.
- solver-001 has no direction matrix. The model runs the same engine and discards the tags. `SweptIsTagFree` shows each recomputed cell gets the value of the tag-free rule `MinAdjacentValue`. `SweptValuesIgnoreTags` shows the whole sweep's values do not depend on the tags it starts from.
- Solve.Solve: it does not state that the result is the true shortest path length. Under solver-003's policy, the fixed point of local minimisation need not be globally optimal from arbitrary inputs, and solver-001's policy can freeze non-optimal lengths, as the source's own comment on `update_matrix` notes. The model proves stability, monotonicity, termination and the sweep bound, not global optimality.
- The input assumptions in `main`'s docstring are not required. The engine is modelled for any integer grid of the right shape, and termination uses the grid's minimum as the lower bound. These assumptions are: destination 0, border and blocked cells at `rows*cols + 2` or more, empty cells at `rows*cols + 1`.

=== FILE: grid.dfy ===
/** The padded grid: a (rows+2) x (cols+2) matrix of sentinel-encoded path
    lengths, with a one-cell border around the rows x cols interior, and the
    parallel matrix of direction tags. */
module Grid {

  type Matrix = seq<seq<int>>

  /** Compass tag of the neighbour a cell's path length came from.
      NoDir is the empty tag: no direction recorded yet. */
  datatype Dir = NoDir | N | NE | E | SE | S | SW | W | NW

  type Directions = seq<seq<Dir>>

  /** The matrix has rows+2 rows of cols+2 entries each. */
  predicate Shaped<T>(m: seq<seq<T>>, rows: int, cols: int) {
    |m| == rows + 2 && forall i | 0 <= i < |m| :: |m[i]| == cols + 2
  }

  /** The "empty / not yet reached" sentinel: one more than the longest
      path through rows*cols cells. 0 marks the destination. */
  function Empty(rows: nat, cols: nat): int {
    rows * cols + 1
  }

  /** Values from rows*cols+2 upwards mark blocked cells (walls, border). */
  predicate IsBlocked(rows: nat, cols: nat, v: int) {
    v > Empty(rows, cols)
  }

  predicate IsInterior(rows: int, cols: int, i: int, j: int) {
    1 <= i <= rows && 1 <= j <= cols
  }

  /** Every entry of m is at least lo. */
  predicate AtLeast(m: Matrix, lo: int) {
    forall i, j | 0 <= i < |m| && 0 <= j < |m[i]| :: lo <= m[i][j]
  }

  /** A lower bound of every entry (and of 0). */
  function LowerBound(m: Matrix): (lo: int)
    ensures lo <= 0 && AtLeast(m, lo)
    decreases |m|
  {
    if |m| == 0 then 0
    else
      var rest := LowerBound(m[1..]);
      var here := RowLowerBound(m[0]);
      assert forall i | 1 <= i < |m| :: m[i] == m[1..][i - 1];
      if here < rest then here else rest
  }

  function RowLowerBound(row: seq<int>): (lo: int)
    ensures lo <= 0 && forall j | 0 <= j < |row| :: lo <= row[j]
    decreases |row|
  {
    if |row| == 0 then 0
    else
      var rest := RowLowerBound(row[1..]);
      assert forall j | 1 <= j < |row| :: row[j] == row[1..][j - 1];
      if row[0] < rest then row[0] else rest
  }

  /** The shape check of solver-003: walks the rows and leaves the loop with
      `break` at the first row of the wrong length. */
  method ValidateDimensions(rows: int, cols: int, m: seq<seq<int>>) returns (ok: bool)
    ensures ok <==> Shaped(m, rows, cols)
  {
    ok := true;
    if |m| != rows + 2 {
      ok := false;
    } else {
      var ctr := 0;
      while ok && ctr < rows + 2
        invariant 0 <= ctr <= rows + 2
        invariant ok ==> forall i | 0 <= i < ctr :: |m[i]| == cols + 2
        invariant !ok ==> !Shaped(m, rows, cols)
      {
        if |m[ctr]| != cols + 2 {
          ok := false;
          break;
        } else {
          ctr := ctr + 1;
        }
      }
    }
  }

  /** The shape check of solver-001: the same walk without `break`; the loop
      guard's test of the flag is what stops it at the first bad row. */
  method ValidateDimensionsNoBreak(rows: int, cols: int, m: seq<seq<int>>) returns (ok: bool)
    ensures ok <==> Shaped(m, rows, cols)
  {
    ok := true;
    if |m| != rows + 2 {
      ok := false;
    } else {
      var ctr := 0;
      while ok && ctr < rows + 2
        invariant 0 <= ctr <= rows + 2
        invariant ok ==> forall i | 0 <= i < ctr :: |m[i]| == cols + 2
        invariant !ok ==> !Shaped(m, rows, cols) && ctr < rows + 2
        decreases (if ok then 1 else 0) + rows + 2 - ctr
      {
        if |m[ctr]| != cols + 2 {
          ok := false;
        } else {
          ctr := ctr + 1;
        }
      }
    }
  }

  /** A direction matrix with the same row count and row lengths as m, every
      entry holding no direction. */
  method InitPathDirections(m: Matrix) returns (d: Directions)
    ensures |d| == |m|
    ensures forall i | 0 <= i < |m| :: |d[i]| == |m[i]|
    ensures forall i, j | 0 <= i < |d| && 0 <= j < |d[i]| :: d[i][j] == NoDir
  {
    d := [];
    var row := 0;
    while row < |m|
      invariant 0 <= row <= |m|
      invariant |d| == row
      invariant forall i | 0 <= i < row :: |d[i]| == |m[i]|
      invariant forall i, j | 0 <= i < row && 0 <= j < |d[i]| :: d[i][j] == NoDir
    {
      var line: seq<Dir> := [];
      var col := 0;
      while col < |m[row]|
        invariant 0 <= col <= |m[row]|
        invariant |line| == col
        invariant forall j | 0 <= j < col :: line[j] == NoDir
      {
        line := line + [NoDir];
        col := col + 1;
      }
      d := d + [line];
      row := row + 1;
    }
  }
}

=== FILE: measure.dfy ===
/** The quantities that bound the convergence loop: the total excess of the
    grid over a lower bound, which every rewrite lowers, and the set of
    cells still holding the sentinel, which solver-001's sweep only shrinks. */
module Measure {
  import opened Grid
  import opened NeighbourRules
  import opened Sweep
  import opened SweepFacts

  /** Sum of row[j] - lo over the row. */
  function RowExcess(row: seq<int>, lo: int): int
    decreases |row|
  {
    if |row| == 0 then 0 else (row[0] - lo) + RowExcess(row[1..], lo)
  }

  /** Sum of m[i][j] - lo over the whole matrix. */
  function Excess(m: Matrix, lo: int): int
    decreases |m|
  {
    if |m| == 0 then 0 else RowExcess(m[0], lo) + Excess(m[1..], lo)
  }

  lemma {:induction false} RowExcessNonNegative(row: seq<int>, lo: int)
    requires forall j | 0 <= j < |row| :: lo <= row[j]
    ensures RowExcess(row, lo) >= 0
    decreases |row|
  {
    if |row| > 0 {
      RowExcessNonNegative(row[1..], lo);
    }
  }

  /** Above a lower bound the excess is a natural number. */
  lemma {:induction false} ExcessNonNegative(m: Matrix, lo: int)
    requires AtLeast(m, lo)
    ensures Excess(m, lo) >= 0
    decreases |m|
  {
    if |m| > 0 {
      RowExcessNonNegative(m[0], lo);
      assert AtLeast(m[1..], lo) by {
        forall i, j | 0 <= i < |m[1..]| && 0 <= j < |m[1..][i]|
          ensures lo <= m[1..][i][j]
        {
          assert m[1..][i] == m[i + 1];
        }
      }
      ExcessNonNegative(m[1..], lo);
    }
  }

  /** Lowering entries of a row lowers its excess; lowering entry k strictly
      lowers it strictly. */
  lemma {:induction false} RowExcessBelow(a: seq<int>, b: seq<int>, lo: int, k: int)
    requires |a| == |b|
    requires forall j | 0 <= j < |a| :: a[j] <= b[j]
    ensures RowExcess(a, lo) <= RowExcess(b, lo)
    ensures 0 <= k < |a| && a[k] < b[k] ==> RowExcess(a, lo) < RowExcess(b, lo)
    decreases |a|
  {
    if |a| > 0 {
      RowExcessBelow(a[1..], b[1..], lo, k - 1);
    }
  }

  /** Two matrices of the same shape, the first pointwise below the second:
      the first has no more excess, and strictly less when it is strictly
      below at (k, l). */
  lemma {:induction false} ExcessBelow(a: Matrix, b: Matrix, lo: int, k: int, l: int)
    requires |a| == |b|
    requires forall i | 0 <= i < |a| :: |a[i]| == |b[i]|
    requires forall i, j | 0 <= i < |a| && 0 <= j < |a[i]| :: a[i][j] <= b[i][j]
    ensures Excess(a, lo) <= Excess(b, lo)
    ensures 0 <= k < |a| && 0 <= l < |a[k]| && a[k][l] < b[k][l] ==> Excess(a, lo) < Excess(b, lo)
    decreases |a|
  {
    if |a| > 0 {
      RowExcessBelow(a[0], b[0], lo, if k == 0 then l else -1);
      assert forall i | 0 <= i < |a| - 1 :: a[1..][i] == a[i + 1] && b[1..][i] == b[i + 1];
      ExcessBelow(a[1..], b[1..], lo, k - 1, l);
    }
  }

  /** A sweep never raises the excess, and lowers it when it rewrote a
      cell. */
  lemma SweptLowersExcess(g: Matrix, t: Directions, g': Matrix, t': Directions, rows: nat, cols: nat,
                          adj: Adjacency, policy: Policy, changes: int, lo: int)
    requires Shaped(g, rows, cols) && Shaped(t, rows, cols)
    requires Swept(g, t, g', t', rows, cols, adj, policy, changes)
    ensures Excess(g', lo) <= Excess(g, lo)
    ensures changes > 0 ==> Excess(g', lo) < Excess(g, lo)
  {
    SweptMonotone(g, t, g', t', rows, cols, adj, policy, changes);
    assert forall i, j | 0 <= i < |g'| && 0 <= j < |g'[i]| :: InRange(rows, cols, i, j);
    if changes > 0 {
      var x :| x in Changed(g, g', rows, cols);
      ExcessBelow(g', g, lo, x.0, x.1);
    } else {
      ExcessBelow(g', g, lo, -1, -1);
    }
  }

  /** The interior cells still holding the empty sentinel. */
  function Empties(g: Matrix, rows: nat, cols: nat): set<(int, int)>
    requires Shaped(g, rows, cols)
  {
    set i, j | 1 <= i <= rows && 1 <= j <= cols && g[i][j] == Empty(rows, cols) :: (i, j)
  }

  /** Under solver-001's policy only sentinel cells are rewritten, and a
      rewritten cell leaves the sentinel for good: the sweep's change count
      is exactly the number of sentinel cells it settled. */
  lemma SweptSettlesEmpties(g: Matrix, t: Directions, g': Matrix, t': Directions, rows: nat, cols: nat,
                            adj: Adjacency, changes: int)
    requires Shaped(g, rows, cols) && Shaped(t, rows, cols)
    requires Swept(g, t, g', t', rows, cols, adj, RecomputeEmpty, changes)
    ensures Changed(g, g', rows, cols) <= Empties(g, rows, cols)
    ensures Empties(g', rows, cols) == Empties(g, rows, cols) - Changed(g, g', rows, cols)
    ensures |Empties(g', rows, cols)| + changes == |Empties(g, rows, cols)|
  {
    SweptMonotone(g, t, g', t', rows, cols, adj, RecomputeEmpty, changes);
    var changed := Changed(g, g', rows, cols);
    var before := Empties(g, rows, cols);
    var after := Empties(g', rows, cols);
    forall x | x in changed
      ensures x in before && x !in after
    {
      assert InRange(rows, cols, x.0, x.1);
    }
    forall x | x in before && x !in changed
      ensures x in after
    {
      assert InRange(rows, cols, x.0, x.1);
    }
    forall x | x in after
      ensures x in before
    {
      assert InRange(rows, cols, x.0, x.1);
    }
    assert after == before - changed;
  }
}

=== FILE: neighbours.dfy ===
/** The two adjacency rules. Each scans a fixed list of cells around (r, c),
    keeps a running minimum that starts at the cell's own value, and, whenever
    a probe lowers it, records that probe's compass tag. */
module NeighbourRules {
  import opened Grid

  /** King: the 8 cells touching the target. Rook: only N, W, E, S. */
  datatype Adjacency = King | Rook

  /** How a probe compares neighbour value v with the running minimum:
      Strict fires when v + 1 < best; Loose fires when v < best, which is
      how the rook rule tests its north and south neighbours. */
  datatype Test = Strict | Loose

  datatype Probe = Probe(tag: Dir, test: Test)

  /** Result of one rule application: the new value and the cell's tag. */
  datatype Relaxed = Relaxed(value: int, dir: Dir)

  /** Row and column offset of the neighbour a tag names (NoDir: the cell). */
  function Offset(d: Dir): (int, int) {
    match d
    case NoDir => (0, 0)
    case N => (-1, 0)
    case NE => (-1, 1)
    case E => (0, 1)
    case SE => (1, 1)
    case S => (1, 0)
    case SW => (1, -1)
    case W => (0, -1)
    case NW => (-1, -1)
  }

  /** The cell that tag d names, seen from x. */
  function Step(x: (int, int), d: Dir): (int, int) {
    (x.0 + Offset(d).0, x.1 + Offset(d).1)
  }

  /** The 3x3 block around (r, c) lies inside m. */
  predicate Inner(m: Matrix, r: int, c: int) {
    && 1 <= r && r + 1 < |m|
    && 1 <= c && c + 1 < |m[r - 1]| && c + 1 < |m[r]| && c + 1 < |m[r + 1]|
  }

  /** The value of the neighbour of (r, c) that d names: the entry of m at
      Step((r, c), d), written out so that literal grids evaluate directly. */
  function Look(m: Matrix, r: int, c: int, d: Dir): int
    requires Inner(m, r, c)
  {
    m[r + Offset(d).0][c + Offset(d).1]
  }

  /** The neighbours of each rule, the cell itself excluded. The king rule's
      probe list KingScan below is the same block with the cell's own probe
      in the middle, because the source's loops visit the cell too; the two
      lists are kept apart so that contracts can quantify over neighbours
      alone, and KingScanCovers proves they agree. */
  const KingOrder: seq<Dir> := [NW, N, NE, W, E, SW, S, SE]
  const RookOrder: seq<Dir> := [N, W, E, S]

  /** The neighbour set of an adjacency rule, in scan order. */
  function Neighbours(adj: Adjacency): seq<Dir> {
    match adj
    case King => KingOrder
    case Rook => RookOrder
  }

  /** The king rule's scan: the whole 3x3 block in row-major order, the
      cell itself included. */
  const KingScan: seq<Probe> := [
    Probe(NW, Strict), Probe(N, Strict), Probe(NE, Strict),
    Probe(W, Strict), Probe(NoDir, Strict), Probe(E, Strict),
    Probe(SW, Strict), Probe(S, Strict), Probe(SE, Strict)]

  /** The middle row of the block, which the rook rule scans between its
      north and south tests. */
  const RowScan: seq<Probe> := [Probe(W, Strict), Probe(NoDir, Strict), Probe(E, Strict)]

  predicate Fires(p: Probe, v: int, best: int) {
    match p.test
    case Strict => v + 1 < best
    case Loose => v < best
  }

  /** One probe: on firing, the minimum becomes the neighbour's value + 1 and
      the tag becomes the probe's. */
  function Try(m: Matrix, r: int, c: int, acc: Relaxed, p: Probe): Relaxed
    requires Inner(m, r, c)
  {
    var v := Look(m, r, c, p.tag);
    if Fires(p, v, acc.value) then Relaxed(v + 1, p.tag) else acc
  }

  /** The probes of ps applied in order. */
  function Scan(m: Matrix, r: int, c: int, ps: seq<Probe>, acc: Relaxed): Relaxed
    requires Inner(m, r, c)
    decreases |ps|
  {
    if ps == [] then acc else Scan(m, r, c, ps[1..], Try(m, r, c, acc, ps[0]))
  }

  /** v is min(own value, neighbour + 1 over the rule's neighbours). */
  predicate IsNeighbourMin(m: Matrix, r: int, c: int, adj: Adjacency, v: int)
    requires Inner(m, r, c)
  {
    && v <= m[r][c]
    && (forall d | d in Neighbours(adj) :: v <= Look(m, r, c, d) + 1)
    && (v == m[r][c] || exists d | d in Neighbours(adj) :: v == Look(m, r, c, d) + 1)
  }

  /** Probe k of ps is the first one whose neighbour + 1 equals v. */
  predicate FirstAttaining(m: Matrix, r: int, c: int, ps: seq<Probe>, k: int, v: int)
    requires Inner(m, r, c)
  {
    && 0 <= k < |ps|
    && Look(m, r, c, ps[k].tag) + 1 == v
    && forall j | 0 <= j < k :: Look(m, r, c, ps[j].tag) + 1 != v
  }

  /** Entry k of ds is the first neighbour whose value + 1 equals v. */
  predicate FirstIn(m: Matrix, r: int, c: int, ds: seq<Dir>, k: int, v: int)
    requires Inner(m, r, c)
  {
    && 0 <= k < |ds|
    && Look(m, r, c, ds[k]) + 1 == v
    && forall j | 0 <= j < k :: Look(m, r, c, ds[j]) + 1 != v
  }

  /** A scan of strict probes computes min(start, neighbour + 1 over ps); its
      tag is the first probe attaining that minimum when the minimum dropped,
      and the starting tag otherwise. */
  lemma {:induction false} ScanStrict(m: Matrix, r: int, c: int, ps: seq<Probe>, acc: Relaxed)
    requires Inner(m, r, c)
    requires forall k | 0 <= k < |ps| :: ps[k].test == Strict
    ensures var res := Scan(m, r, c, ps, acc);
      && res.value <= acc.value
      && (forall k | 0 <= k < |ps| :: res.value <= Look(m, r, c, ps[k].tag) + 1)
      && (res.value == acc.value ==> res.dir == acc.dir)
      && (res.value < acc.value ==>
            exists k :: FirstAttaining(m, r, c, ps, k, res.value) && res.dir == ps[k].tag)
    decreases |ps|
  {
    if ps != [] {
      var acc1 := Try(m, r, c, acc, ps[0]);
      var res := Scan(m, r, c, ps, acc);
      assert res == Scan(m, r, c, ps[1..], acc1);
      assert forall k | 0 <= k < |ps[1..]| :: ps[1..][k] == ps[k + 1];
      ScanStrict(m, r, c, ps[1..], acc1);
      var v0 := Look(m, r, c, ps[0].tag);
      assert res.value <= v0 + 1;
      if res.value < acc.value {
        if res.value == acc1.value {
          assert acc1 == Relaxed(v0 + 1, ps[0].tag);
          assert FirstAttaining(m, r, c, ps, 0, res.value);
        } else {
          var k1 :| FirstAttaining(m, r, c, ps[1..], k1, res.value) && res.dir == ps[1..][k1].tag;
          assert v0 + 1 != res.value;
          assert FirstAttaining(m, r, c, ps, k1 + 1, res.value);
        }
      }
    }
  }

  /** The king rule (min_adjacent_w_diagonals): one strict scan of the block. */
  function KingMin(m: Matrix, r: int, c: int, tag: Dir): Relaxed
    requires Inner(m, r, c)
  {
    Scan(m, r, c, KingScan, Relaxed(m[r][c], tag))
  }

  /** The rook rule (min_adjacent_wo_diagonals): a loose north test, a strict
      scan of the middle row, then a loose south test. */
  function RookMin(m: Matrix, r: int, c: int, tag: Dir): Relaxed
    requires Inner(m, r, c)
  {
    var north := Try(m, r, c, Relaxed(m[r][c], tag), Probe(N, Loose));
    var row := Scan(m, r, c, RowScan, north);
    Try(m, r, c, row, Probe(S, Loose))
  }

  /** The king rule's value is the neighbour minimum. Its tag is that of the
      first cell in NW, N, NE, W, E, SW, S, SE order attaining the minimum
      when the value dropped, and is left alone otherwise. */
  lemma KingMinSpec(m: Matrix, r: int, c: int, tag: Dir)
    requires Inner(m, r, c)
    ensures var res := KingMin(m, r, c, tag);
      && IsNeighbourMin(m, r, c, King, res.value)
      && (res.value == m[r][c] ==> res.dir == tag)
      && (res.value < m[r][c] ==>
            && res.dir in KingOrder
            && Look(m, r, c, res.dir) + 1 == res.value
            && exists k :: FirstIn(m, r, c, KingOrder, k, res.value) && KingOrder[k] == res.dir)
  {
    var res := KingMin(m, r, c, tag);
    ScanStrict(m, r, c, KingScan, Relaxed(m[r][c], tag));
    KingScanCovers();
    KingMinBound(m, r, c, res.value);
    if res.value < m[r][c] {
      var k9 :| FirstAttaining(m, r, c, KingScan, k9, res.value) && res.dir == KingScan[k9].tag;
      KingFirst(m, r, c, k9, res.value);
    }
  }

  lemma KingMinBound(m: Matrix, r: int, c: int, v: int)
    requires Inner(m, r, c)
    requires forall k | 0 <= k < |KingScan| :: v <= Look(m, r, c, KingScan[k].tag) + 1
    ensures forall d | d in KingOrder :: v <= Look(m, r, c, d) + 1
  {
    KingScanCovers();
    forall d | d in KingOrder
      ensures v <= Look(m, r, c, d) + 1
    {
      var k :| 0 <= k < |KingOrder| && KingOrder[k] == d;
      assert KingScan[Skip(k)].tag == d;
    }
  }

  lemma KingFirst(m: Matrix, r: int, c: int, k9: int, v: int)
    requires Inner(m, r, c) && v <= m[r][c]
    requires FirstAttaining(m, r, c, KingScan, k9, v)
    ensures k9 != 4
    ensures var k := if k9 < 4 then k9 else k9 - 1;
      FirstIn(m, r, c, KingOrder, k, v) && KingOrder[k] == KingScan[k9].tag
  {
    KingScanCovers();
    assert k9 != 4;
    var k := if k9 < 4 then k9 else k9 - 1;
    assert Skip(k) == k9;
    forall j | 0 <= j < k
      ensures Look(m, r, c, KingOrder[j]) + 1 != v
    {
      assert KingScan[Skip(j)].tag == KingOrder[j];
    }
  }

  /** Position in the king scan of the k-th entry of KingOrder. */
  function Skip(k: int): int {
    if k < 4 then k else k + 1
  }

  /** KingScan is KingOrder with the cell's own probe inserted at position 4. */
  lemma KingScanCovers()
    ensures forall k | 0 <= k < |KingOrder| :: KingScan[Skip(k)].tag == KingOrder[k]
    ensures KingScan[4].tag == NoDir
  {
  }

  /** The rook rule's value is the neighbour minimum over N, W, E, S. Because
      its north and south tests are loose, S wins every tie, then N, and both
      can be recorded on a tie with the cell's own value, while W and E are
      recorded only on a strict improvement. */
  lemma RookMinSpec(m: Matrix, r: int, c: int, tag: Dir)
    requires Inner(m, r, c)
    ensures var res := RookMin(m, r, c, tag);
      var v := res.value;
      && IsNeighbourMin(m, r, c, Rook, v)
      && (Look(m, r, c, S) + 1 == v ==> res.dir == S)
      && (Look(m, r, c, S) + 1 != v && Look(m, r, c, N) + 1 == v ==> res.dir == N)
      && (Look(m, r, c, S) + 1 != v && Look(m, r, c, N) + 1 != v && v < m[r][c] ==>
            res.dir == (if Look(m, r, c, W) + 1 == v then W else E))
      && (Look(m, r, c, S) + 1 != v && Look(m, r, c, N) + 1 != v && v == m[r][c] ==>
            res.dir == tag)
  {
    var north := Try(m, r, c, Relaxed(m[r][c], tag), Probe(N, Loose));
    ScanStrict(m, r, c, RowScan, north);
    var row := Scan(m, r, c, RowScan, north);
    if row.value < north.value {
      var k :| FirstAttaining(m, r, c, RowScan, k, row.value) && row.dir == RowScan[k].tag;
      assert k != 1;
    }
  }

  /** One application of the chosen rule to cell (r, c), whose tag is tag.
      The value is the neighbour minimum; the tag is either left alone (and
      the value too) or names a neighbour whose value + 1 is the new value. */
  function MinAdjacent(m: Matrix, r: int, c: int, adj: Adjacency, tag: Dir): (res: Relaxed)
    requires Inner(m, r, c)
    ensures IsNeighbourMin(m, r, c, adj, res.value)
    ensures res == Relaxed(m[r][c], tag)
         || (res.dir in Neighbours(adj) && Look(m, r, c, res.dir) + 1 == res.value)
    ensures res.value < m[r][c] ==> res.dir in Neighbours(adj)
  {
    match adj
    case King => KingMinSpec(m, r, c, tag); KingMin(m, r, c, tag)
    case Rook => RookMinSpec(m, r, c, tag); RookMin(m, r, c, tag)
  }

  /** The value alone, as solver-001 computes it without a direction matrix. */
  function MinAdjacentValue(m: Matrix, r: int, c: int, adj: Adjacency): (v: int)
    requires Inner(m, r, c)
    ensures IsNeighbourMin(m, r, c, adj, v)
  {
    MinAdjacent(m, r, c, adj, NoDir).value
  }

  /** The neighbour minimum is unique. */
  lemma NeighbourMinUnique(m: Matrix, r: int, c: int, adj: Adjacency, v1: int, v2: int)
    requires Inner(m, r, c)
    requires IsNeighbourMin(m, r, c, adj, v1) && IsNeighbourMin(m, r, c, adj, v2)
    ensures v1 == v2
  {
  }

  /** The tag a cell carries never influences its new value. */
  lemma ValueIgnoresTag(m: Matrix, r: int, c: int, adj: Adjacency, t1: Dir, t2: Dir)
    requires Inner(m, r, c)
    ensures MinAdjacent(m, r, c, adj, t1).value == MinAdjacent(m, r, c, adj, t2).value
  {
    NeighbourMinUnique(m, r, c, adj, MinAdjacent(m, r, c, adj, t1).value, MinAdjacent(m, r, c, adj, t2).value);
  }

  /** The rook rule reads only the cell and its N, W, E, S neighbours: two
      grids that agree there give the same value and the same tag, whatever
      their diagonal neighbours hold. */
  lemma RookIgnoresDiagonals(m1: Matrix, m2: Matrix, r: int, c: int, tag: Dir)
    requires Inner(m1, r, c) && Inner(m2, r, c)
    requires m1[r][c] == m2[r][c]
    requires forall d | d in RookOrder :: Look(m1, r, c, d) == Look(m2, r, c, d)
    ensures MinAdjacent(m1, r, c, Rook, tag) == MinAdjacent(m2, r, c, Rook, tag)
  {
    var res1 := MinAdjacent(m1, r, c, Rook, tag);
    var res2 := MinAdjacent(m2, r, c, Rook, tag);
    assert IsNeighbourMin(m2, r, c, Rook, res1.value);
    NeighbourMinUnique(m2, r, c, Rook, res1.value, res2.value);
    RookMinSpec(m1, r, c, tag);
    RookMinSpec(m2, r, c, tag);
  }

  /** The rook rule's loose north test, in the source's encoding: in a 2x1
      grid holding the destination and, below it, a cell at 1 (sentinel 3,
      walls 4), that cell is not blocked, so every sweep recomputes it. The rook rule keeps its value yet tags it N; the king
      rule leaves it untagged. */
  lemma RookTagsNorthOnTie()
    ensures var m := [[4, 4, 4], [4, 0, 4], [4, 1, 4], [4, 4, 4]];
      && Empty(2, 1) == 3 && m[2][1] < Empty(2, 1) && IsBlocked(2, 1, m[0][1])
      && MinAdjacent(m, 2, 1, Rook, NoDir) == Relaxed(1, N)
      && MinAdjacent(m, 2, 1, King, NoDir) == Relaxed(1, NoDir)
  {
    var m := [[4, 4, 4], [4, 0, 4], [4, 1, 4], [4, 4, 4]];
    RookMinSpec(m, 2, 1, NoDir);
    KingMinSpec(m, 2, 1, NoDir);
  }
}

=== FILE: settle.dfy ===
/** Why a lowered value is a path length: every cell a run has lowered
    ends exactly one more than one of its rule neighbours. Under
    solver-001's policy this holds after every sweep, because a settled
    cell and the neighbour it was settled from are below the sentinel and
    so are never recomputed again. The last lemmas give the first-sweep
    step of the open 2x2 example in Solve. */
module Settle {
  import opened Grid
  import opened NeighbourRules
  import opened Sweep
  import opened SweepFacts
  import opened Walls

  /** Every interior cell of g below its value in the start grid m is one
      more than some rule neighbour. */
  ghost predicate Witnessed(m: Matrix, g: Matrix, rows: nat, cols: nat, adj: Adjacency)
    requires Shaped(m, rows, cols) && Shaped(g, rows, cols)
  {
    forall i, j | IsInterior(rows, cols, i, j) && g[i][j] < m[i][j] ::
      exists d | d in Neighbours(adj) :: Look(g, i, j, d) + 1 == g[i][j]
  }

  /** Under solver-001's policy a sweep keeps every lowered cell witnessed,
      provided the lowered cells are below the sentinel (they started at it
      and dropped). */
  lemma SweptKeepsWitnessed(m: Matrix, g: Matrix, t: Directions, g': Matrix, t': Directions,
                            rows: nat, cols: nat, adj: Adjacency, changes: int)
    requires Shaped(m, rows, cols) && Shaped(g, rows, cols) && Shaped(t, rows, cols)
    requires Swept(g, t, g', t', rows, cols, adj, RecomputeEmpty, changes)
    requires Witnessed(m, g, rows, cols, adj)
    requires forall i, j | IsInterior(rows, cols, i, j) && g[i][j] < m[i][j] :: g[i][j] < Empty(rows, cols)
    ensures Witnessed(m, g', rows, cols, adj)
    ensures forall i, j | IsInterior(rows, cols, i, j) && g'[i][j] < m[i][j] :: g'[i][j] < Empty(rows, cols)
  {
    SweptMonotone(g, t, g', t', rows, cols, adj, RecomputeEmpty, changes);
    forall i, j | IsInterior(rows, cols, i, j) && g'[i][j] < m[i][j]
      ensures g'[i][j] < Empty(rows, cols)
      ensures exists d | d in Neighbours(adj) :: Look(g', i, j, d) + 1 == g'[i][j]
    {
      assert CellSwept(g, t, g', t', rows, cols, adj, RecomputeEmpty, i, j);
      if g'[i][j] == g[i][j] {
        var d :| d in Neighbours(adj) && Look(g, i, j, d) + 1 == g[i][j];
        KeptNeighbour(g, g', rows, cols, i, j, d);
      } else {
        SettledNeighbour(g, g', rows, cols, adj, t[i][j], i, j);
      }
    }
  }

  /** A neighbour below the sentinel is not recomputed, so the sweep leaves
      it, and what the cell sees of it, unchanged. */
  lemma KeptNeighbour(g: Matrix, g': Matrix, rows: nat, cols: nat, r: int, c: int, d: Dir)
    requires Shaped(g, rows, cols) && Shaped(g', rows, cols) && IsInterior(rows, cols, r, c)
    requires forall i, j | InRange(rows, cols, i, j) && !Recomputes(rows, cols, RecomputeEmpty, g[i][j]) ::
               g'[i][j] == g[i][j]
    requires Look(g, r, c, d) < Empty(rows, cols)
    ensures Look(g', r, c, d) == Look(g, r, c, d)
  {
    var n := Step((r, c), d);
    assert InRange(rows, cols, n.0, n.1);
  }

  /** A sentinel cell the sweep lowers is settled from a rule neighbour one
      less; that neighbour is below the sentinel, so it holds the same value
      after the sweep as in the view. */
  lemma SettledNeighbour(g: Matrix, g': Matrix, rows: nat, cols: nat, adj: Adjacency, tag: Dir, r: int, c: int)
    requires Shaped(g, rows, cols) && Shaped(g', rows, cols) && IsInterior(rows, cols, r, c)
    requires forall i, j | InRange(rows, cols, i, j) && !Recomputes(rows, cols, RecomputeEmpty, g[i][j]) ::
               g'[i][j] == g[i][j]
    requires g[r][c] == Empty(rows, cols)
    requires g'[r][c] == MinAdjacent(VisitView(g, g', rows, cols, r, c), r, c, adj, tag).value
    requires g'[r][c] != g[r][c]
    ensures g'[r][c] < Empty(rows, cols)
    ensures exists d | d in Neighbours(adj) :: Look(g', r, c, d) + 1 == g'[r][c]
  {
    var d := ViewSettled(g, g', rows, cols, adj, tag, r, c);
    var n := Step((r, c), d);
    assert Look(g', r, c, d) == g'[n.0][n.1];
  }

  /** The rule lowering a cell's view names a rule neighbour d whose value
      in the view, new if visited and old otherwise, is one less. */
  lemma ViewSettled(g: Matrix, g': Matrix, rows: nat, cols: nat, adj: Adjacency, tag: Dir, r: int, c: int)
    returns (d: Dir)
    requires Shaped(g, rows, cols) && Shaped(g', rows, cols) && IsInterior(rows, cols, r, c)
    requires MinAdjacent(VisitView(g, g', rows, cols, r, c), r, c, adj, tag).value < g[r][c]
    ensures var n := Step((r, c), d);
      && d in Neighbours(adj) && InRange(rows, cols, n.0, n.1)
      && (if Visited(rows, cols, r, c, n.0, n.1) then g'[n.0][n.1] else g[n.0][n.1]) + 1 ==
           MinAdjacent(VisitView(g, g', rows, cols, r, c), r, c, adj, tag).value
  {
    ViewCentre(g, g', rows, cols, r, c);
    d := MinAdjacent(VisitView(g, g', rows, cols, r, c), r, c, adj, tag).dir;
    ViewLook(g, g', rows, cols, r, c, d);
  }

  /** When every lowered cell carries a rule tag and every tag is exact,
      every lowered cell is witnessed by its tag. */
  lemma TagsWitness(m: Matrix, g: Matrix, t: Directions, rows: nat, cols: nat, adj: Adjacency)
    requires Shaped(m, rows, cols) && Shaped(g, rows, cols) && Shaped(t, rows, cols)
    requires Tagged(m, g, t, rows, cols, adj)
    requires forall i, j | IsInterior(rows, cols, i, j) && t[i][j] != NoDir :: Look(g, i, j, t[i][j]) + 1 == g[i][j]
    ensures Witnessed(m, g, rows, cols, adj)
  {
    forall i, j | IsInterior(rows, cols, i, j) && g[i][j] < m[i][j]
      ensures exists d | d in Neighbours(adj) :: Look(g, i, j, d) + 1 == g[i][j]
    {
      var d := t[i][j];
      assert d in Neighbours(adj);
      assert d != NoDir;
      assert Look(g, i, j, d) + 1 == g[i][j];
    }
  }

  /** A sentinel-only sweep settles a sentinel cell whose north-west
      neighbour is the destination at 1 or less. */
  lemma SettlesBesideZero(g: Matrix, t: Directions, g': Matrix, t': Directions, rows: nat, cols: nat,
                          changes: int, r: int, c: int)
    requires Shaped(g, rows, cols) && Shaped(t, rows, cols)
    requires Swept(g, t, g', t', rows, cols, King, RecomputeEmpty, changes)
    requires IsInterior(rows, cols, r, c) && IsInterior(rows, cols, r - 1, c - 1)
    requires g[r - 1][c - 1] == 0 && g[r][c] == Empty(rows, cols)
    ensures g'[r][c] <= 1
  {
    SweptMonotone(g, t, g', t', rows, cols, King, RecomputeEmpty, changes);
    SweptIsTagFree(g, t, g', t', rows, cols, King, RecomputeEmpty, changes);
    SentinelPositive(rows, cols);
    assert InRange(rows, cols, r - 1, c - 1);
    DiagonalView(g, g', rows, cols, r, c, NoDir);
  }

  /** The sentinel is never the destination's 0. */
  lemma SentinelPositive(rows: nat, cols: nat)
    ensures 0 < Empty(rows, cols)
  {
  }

  /** The rule applied to a view in which the north-west neighbour,
      already visited, holds 0 gives 1 or less. */
  lemma DiagonalView(g: Matrix, g': Matrix, rows: nat, cols: nat, r: int, c: int, tag: Dir)
    requires Shaped(g, rows, cols) && Shaped(g', rows, cols) && IsInterior(rows, cols, r, c)
    requires Visited(rows, cols, r, c, r - 1, c - 1) && g'[r - 1][c - 1] == 0
    ensures MinAdjacent(VisitView(g, g', rows, cols, r, c), r, c, King, tag).value <= 1
  {
    ViewLook(g, g', rows, cols, r, c, NW);
    BelowNorthWestZero(VisitView(g, g', rows, cols, r, c), r, c, tag);
  }

  /** A cell whose north-west neighbour is 0 relaxes to 1 or less. */
  lemma BelowNorthWestZero(v: Matrix, r: int, c: int, tag: Dir)
    requires Inner(v, r, c) && Look(v, r, c, NW) == 0
    ensures MinAdjacent(v, r, c, King, tag).value <= 1
  {
    assert NW in Neighbours(King);
  }
}

=== FILE: solve.dfy ===
/** The convergence loop of main: sweep until a sweep rewrites nothing,
    counting the sweeps, plus the argument checks main makes before it. */
module Solve {
  import opened Grid
  import opened NeighbourRules
  import opened Sweep
  import opened SweepFacts
  import opened Measure
  import opened Walls
  import opened Settle

  /** Cells no sweep of a run ever touches: the border, and the interior
      cells the policy does not select in the starting grid. */
  predicate Frozen(m: Matrix, rows: nat, cols: nat, policy: Policy, i: int, j: int)
    requires Shaped(m, rows, cols) && InRange(rows, cols, i, j)
  {
    !IsInterior(rows, cols, i, j) || !Recomputes(rows, cols, policy, m[i][j])
  }

  /** What stays true of the state (g, t) of a run that started from m. */
  ghost predicate RunInvariant(m: Matrix, g: Matrix, t: Directions, rows: nat, cols: nat,
                               adj: Adjacency, policy: Policy)
    requires Shaped(m, rows, cols)
  {
    && Shaped(g, rows, cols) && Shaped(t, rows, cols)
    && (forall lo | AtLeast(m, lo) :: AtLeast(g, lo))
    && (forall i, j | InRange(rows, cols, i, j) :: g[i][j] <= m[i][j])
    && (forall i, j | InRange(rows, cols, i, j) && Frozen(m, rows, cols, policy, i, j) ::
          g[i][j] == m[i][j] && t[i][j] == NoDir)
    && (forall i, j | IsInterior(rows, cols, i, j) && Enclosed(m, rows, cols, adj, i, j) :: g[i][j] == m[i][j])
    && (forall S: set<(int, int)> | Walled(m, rows, cols, adj, S) :: forall x | x in S :: g[x.0][x.1] == m[x.0][x.1])
    && TagsConsistent(g, t, rows, cols, adj)
    && Tagged(m, g, t, rows, cols, adj)
    && (policy == RecomputeEmpty ==> Witnessed(m, g, rows, cols, adj))
  }

  /** The starting state: the grid as given, every tag empty. */
  lemma StartInvariant(m: Matrix, t: Directions, rows: nat, cols: nat, adj: Adjacency, policy: Policy)
    requires Shaped(m, rows, cols) && Shaped(t, rows, cols)
    requires forall i, j | 0 <= i < |t| && 0 <= j < |t[i]| :: t[i][j] == NoDir
    ensures RunInvariant(m, m, t, rows, cols, adj, policy)
  {
  }

  /** A blocked neighbour is frozen, so a cell walled in at the start is
      walled in for the whole run. */
  lemma StillEnclosed(m: Matrix, g: Matrix, rows: nat, cols: nat,
                      adj: Adjacency, policy: Policy, r: int, c: int)
    requires Shaped(m, rows, cols) && Shaped(g, rows, cols)
    requires forall i, j | InRange(rows, cols, i, j) && Frozen(m, rows, cols, policy, i, j) :: g[i][j] == m[i][j]
    requires IsInterior(rows, cols, r, c) && Enclosed(m, rows, cols, adj, r, c)
    ensures Enclosed(g, rows, cols, adj, r, c)
  {
    forall d | d in Neighbours(adj)
      ensures IsBlocked(rows, cols, Look(g, r, c, d))
    {
      var n := Step((r, c), d);
      assert InRange(rows, cols, n.0, n.1);
      assert Frozen(m, rows, cols, policy, n.0, n.1);
    }
  }

  /** One sweep keeps the run invariant. */
  lemma SweepKeepsInvariant(m: Matrix, g: Matrix, t: Directions, g': Matrix, t': Directions,
                            rows: nat, cols: nat, adj: Adjacency, policy: Policy, changes: int)
    requires Shaped(m, rows, cols)
    requires RunInvariant(m, g, t, rows, cols, adj, policy)
    requires Swept(g, t, g', t', rows, cols, adj, policy, changes)
    ensures RunInvariant(m, g', t', rows, cols, adj, policy)
  {
    SweptMonotone(g, t, g', t', rows, cols, adj, policy, changes);
    SweptKeepsTagsConsistent(g, t, g', t', rows, cols, adj, policy, changes);
    SweptKeepsTagged(m, g, t, g', t', rows, cols, adj, policy, changes);
    forall lo | AtLeast(m, lo)
      ensures AtLeast(g', lo)
    {
      SweptKeepsLowerBound(g, t, g', t', rows, cols, adj, policy, changes, lo);
    }
    forall i, j | InRange(rows, cols, i, j) && Frozen(m, rows, cols, policy, i, j)
      ensures g'[i][j] == m[i][j] && t'[i][j] == NoDir
    {
    }
    forall i, j | IsInterior(rows, cols, i, j) && Enclosed(m, rows, cols, adj, i, j)
      ensures g'[i][j] == m[i][j]
    {
      StillEnclosed(m, g, rows, cols, adj, policy, i, j);
      SweptKeepsEnclosed(g, t, g', t', rows, cols, adj, policy, changes, i, j);
    }
    forall S: set<(int, int)> | Walled(m, rows, cols, adj, S)
      ensures forall x | x in S :: g'[x.0][x.1] == m[x.0][x.1]
    {
      StillWalled(m, g, rows, cols, adj, policy, S);
      SweptKeepsWalled(g, t, g', t', rows, cols, adj, policy, changes, S);
    }
    if policy == RecomputeEmpty {
      forall i, j | IsInterior(rows, cols, i, j) && g[i][j] < m[i][j]
        ensures g[i][j] < Empty(rows, cols)
      {
        assert !Frozen(m, rows, cols, policy, i, j);
      }
      SweptKeepsWitnessed(m, g, t, g', t', rows, cols, adj, changes);
    }
  }

  /** A group walled off at the start is walled off for the whole run: its
      walls are frozen and its own cells have kept their values. */
  lemma StillWalled(m: Matrix, g: Matrix, rows: nat, cols: nat, adj: Adjacency, policy: Policy, S: set<(int, int)>)
    requires Shaped(m, rows, cols) && Shaped(g, rows, cols)
    requires forall i, j | InRange(rows, cols, i, j) && Frozen(m, rows, cols, policy, i, j) :: g[i][j] == m[i][j]
    requires Walled(m, rows, cols, adj, S)
    requires forall x | x in S :: g[x.0][x.1] == m[x.0][x.1]
    ensures Walled(g, rows, cols, adj, S)
  {
    forall i, j | InRange(rows, cols, i, j) && IsBlocked(rows, cols, m[i][j])
      ensures g[i][j] == m[i][j]
    {
      assert Frozen(m, rows, cols, policy, i, j);
    }
    WalledKept(m, g, rows, cols, adj, S);
  }

  /** A sequence of sweeps: gs[k], ts[k] is the state before sweep k, which
      counted cs[k] changes and produced gs[k + 1], ts[k + 1]. */
  ghost predicate Trace(gs: seq<Matrix>, ts: seq<Directions>, cs: seq<int>,
                        rows: nat, cols: nat, adj: Adjacency, policy: Policy)
  {
    && |gs| == |cs| + 1 && |ts| == |cs| + 1
    && (forall k | 0 <= k < |gs| :: Shaped(gs[k], rows, cols) && Shaped(ts[k], rows, cols))
    && (forall k | 0 <= k < |cs| :: Swept(gs[k], ts[k], gs[k + 1], ts[k + 1], rows, cols, adj, policy, cs[k]))
  }

  /** The loop's exit rule: the last sweep counted no change, every earlier
      one counted some. */
  predicate Stops(cs: seq<int>) {
    && 1 <= |cs| && cs[|cs| - 1] == 0
    && forall k | 0 <= k < |cs| - 1 :: cs[k] != 0
  }

  /** The whole run of main's loop from m: the grid as given with every tag
      empty, then sweeps until the first that changes nothing. */
  ghost predicate RunOf(m: Matrix, gs: seq<Matrix>, ts: seq<Directions>, cs: seq<int>,
                        rows: nat, cols: nat, adj: Adjacency, policy: Policy)
  {
    && Trace(gs, ts, cs, rows, cols, adj, policy)
    && gs[0] == m
    && (forall i, j | InRange(rows, cols, i, j) :: ts[0][i][j] == NoDir)
    && Stops(cs)
  }

  /** A run is determined by its start grid: every sweep is (SweptUnique),
      and the exit rule fixes the number of sweeps. So the loop has exactly
      one outcome. */
  lemma RunUnique(m: Matrix, gs1: seq<Matrix>, ts1: seq<Directions>, cs1: seq<int>,
                  gs2: seq<Matrix>, ts2: seq<Directions>, cs2: seq<int>,
                  rows: nat, cols: nat, adj: Adjacency, policy: Policy)
    requires RunOf(m, gs1, ts1, cs1, rows, cols, adj, policy)
    requires RunOf(m, gs2, ts2, cs2, rows, cols, adj, policy)
    ensures gs1 == gs2 && ts1 == ts2 && cs1 == cs2
  {
    SameGrid(ts1[0], ts2[0], rows, cols);
    var n := if |cs1| < |cs2| then |cs1| else |cs2|;
    TracesAgree(gs1, ts1, cs1, gs2, ts2, cs2, rows, cols, adj, policy, n);
    if |cs1| < |cs2| {
      assert false;
    } else if |cs2| < |cs1| {
      assert false;
    }
  }

  /** Two traces from the same state agree on their first k sweeps. */
  lemma {:induction false} TracesAgree(gs1: seq<Matrix>, ts1: seq<Directions>, cs1: seq<int>,
                                      gs2: seq<Matrix>, ts2: seq<Directions>, cs2: seq<int>,
                                      rows: nat, cols: nat, adj: Adjacency, policy: Policy, k: nat)
    requires Trace(gs1, ts1, cs1, rows, cols, adj, policy) && Trace(gs2, ts2, cs2, rows, cols, adj, policy)
    requires gs1[0] == gs2[0] && ts1[0] == ts2[0]
    requires k <= |cs1| && k <= |cs2|
    ensures forall i | 0 <= i <= k :: gs1[i] == gs2[i] && ts1[i] == ts2[i]
    ensures forall i | 0 <= i < k :: cs1[i] == cs2[i]
  {
    if 0 < k {
      TracesAgree(gs1, ts1, cs1, gs2, ts2, cs2, rows, cols, adj, policy, k - 1);
      assert Swept(gs1[k - 1], ts1[k - 1], gs1[k], ts1[k], rows, cols, adj, policy, cs1[k - 1]);
      assert Swept(gs2[k - 1], ts2[k - 1], gs2[k], ts2[k], rows, cols, adj, policy, cs2[k - 1]);
      SweptUnique(gs1[k - 1], ts1[k - 1], gs1[k], ts1[k], gs2[k], ts2[k],
                  rows, cols, adj, policy, cs1[k - 1], cs2[k - 1]);
    }
  }

  /** The loop's ghost record after some sweeps: a trace from (m, t0) ending
      in the current state, every sweep but the last having counted a change,
      the last having counted `changes`. */
  ghost predicate Prefix(m: Matrix, t0: Directions, gs: seq<Matrix>, ts: seq<Directions>, cs: seq<int>,
                         g: Matrix, t: Directions, sweeps: nat, changes: int,
                         rows: nat, cols: nat, adj: Adjacency, policy: Policy)
  {
    && Trace(gs, ts, cs, rows, cols, adj, policy) && gs[0] == m && ts[0] == t0
    && |cs| == sweeps && gs[sweeps] == g && ts[sweeps] == t
    && (forall k | 0 <= k < |cs| - 1 :: cs[k] != 0)
    && (0 < sweeps ==> cs[sweeps - 1] == changes)
  }

  /** One more sweep, taken because the last one changed something, extends
      the record. */
  lemma PrefixStep(m: Matrix, t0: Directions, gs: seq<Matrix>, ts: seq<Directions>, cs: seq<int>,
                   g: Matrix, t: Directions, sweeps: nat, changes: int, g': Matrix, t': Directions, changes': int,
                   rows: nat, cols: nat, adj: Adjacency, policy: Policy)
    requires Prefix(m, t0, gs, ts, cs, g, t, sweeps, changes, rows, cols, adj, policy) && changes != 0
    requires Shaped(g, rows, cols) && Shaped(t, rows, cols)
    requires Swept(g, t, g', t', rows, cols, adj, policy, changes')
    ensures Prefix(m, t0, gs + [g'], ts + [t'], cs + [changes'], g', t', sweeps + 1, changes', rows, cols, adj, policy)
  {
  }

  /** The record of a loop that has stopped, started from empty tags, is a
      whole run. */
  lemma PrefixRun(m: Matrix, t0: Directions, gs: seq<Matrix>, ts: seq<Directions>, cs: seq<int>,
                  g: Matrix, t: Directions, sweeps: nat, rows: nat, cols: nat, adj: Adjacency, policy: Policy)
    requires Prefix(m, t0, gs, ts, cs, g, t, sweeps, 0, rows, cols, adj, policy) && 0 < sweeps
    requires Shaped(t0, rows, cols) && forall i, j | InRange(rows, cols, i, j) :: t0[i][j] == NoDir
    ensures RunOf(m, gs, ts, cs, rows, cols, adj, policy)
  {
  }

  /** The loop of main: start with 999 pending changes and sweep while the
      last sweep changed something. On exit the grid is stable (a further
      sweep would change nothing), no value has risen, frozen and walled-in
      cells hold their starting values, the tags are consistent, and every
      lowered cell is one more than a rule neighbour; under
      RecomputeAlways every tag is exact, and under RecomputeEmpty the run
      takes at most one sweep more than there were sentinel cells. */
  method Solve(rows: nat, cols: nat, m: Matrix, adj: Adjacency, policy: Policy)
    returns (g: Matrix, t: Directions, sweeps: nat, ghost gs: seq<Matrix>, ghost ts: seq<Directions>, ghost cs: seq<int>)
    requires Shaped(m, rows, cols)
    ensures RunOf(m, gs, ts, cs, rows, cols, adj, policy) && |cs| == sweeps && gs[sweeps] == g && ts[sweeps] == t
    ensures Shaped(g, rows, cols) && Shaped(t, rows, cols)
    ensures Stable(g, rows, cols, adj, policy)
    ensures forall i, j | InRange(rows, cols, i, j) :: g[i][j] <= m[i][j]
    ensures forall lo | AtLeast(m, lo) :: AtLeast(g, lo)
    ensures forall i, j | InRange(rows, cols, i, j) && Frozen(m, rows, cols, policy, i, j) ::
              g[i][j] == m[i][j] && t[i][j] == NoDir
    ensures forall i, j | IsInterior(rows, cols, i, j) && Enclosed(m, rows, cols, adj, i, j) :: g[i][j] == m[i][j]
    ensures forall S: set<(int, int)> | Walled(m, rows, cols, adj, S) :: forall x | x in S :: g[x.0][x.1] == m[x.0][x.1]
    ensures TagsConsistent(g, t, rows, cols, adj)
    ensures Tagged(m, g, t, rows, cols, adj)
    ensures Witnessed(m, g, rows, cols, adj)
    ensures policy == RecomputeAlways ==>
              forall i, j | IsInterior(rows, cols, i, j) && t[i][j] != NoDir :: Look(g, i, j, t[i][j]) + 1 == g[i][j]
    ensures 1 <= sweeps
    ensures policy == RecomputeEmpty ==> sweeps <= |Empties(m, rows, cols)| + 1
  {
    t := InitPathDirections(m);
    g := m;
    StartInvariant(m, t, rows, cols, adj, policy);
    ghost var lo := LowerBound(m);
    var changes: nat := 999;
    sweeps := 0;
    gs, ts, cs := [m], [t], [];
    ghost var blank := t;
    while changes > 0
      invariant Prefix(m, blank, gs, ts, cs, g, t, sweeps, changes, rows, cols, adj, policy)
      invariant RunInvariant(m, g, t, rows, cols, adj, policy)
      invariant changes == 0 ==> Stable(g, rows, cols, adj, policy) && 1 <= sweeps
      invariant policy == RecomputeEmpty ==>
                  |Empties(g, rows, cols)| + sweeps <= |Empties(m, rows, cols)| + (if changes > 0 then 0 else 1)
      decreases Excess(g, lo) + (if changes > 0 then 1 else 0)
    {
      ExcessNonNegative(g, lo);
      ghost var g0, t0, c0 := g, t, changes;
      g, t, changes := UpdateMatrix(rows, cols, g, t, adj, policy);
      SweepKeepsInvariant(m, g0, t0, g, t, rows, cols, adj, policy, changes);
      SweptLowersExcess(g0, t0, g, t, rows, cols, adj, policy, changes, lo);
      if changes == 0 {
        QuietSweepIsStable(g0, t0, g, t, rows, cols, adj, policy, changes);
      }
      if policy == RecomputeEmpty {
        SweptSettlesEmpties(g0, t0, g, t, rows, cols, adj, changes);
      }
      PrefixStep(m, blank, gs, ts, cs, g0, t0, sweeps, c0, g, t, changes, rows, cols, adj, policy);
      gs, ts, cs := gs + [g], ts + [t], cs + [changes];
      sweeps := sweeps + 1;
    }
    PrefixRun(m, blank, gs, ts, cs, g, t, sweeps, rows, cols, adj, policy);
    if policy == RecomputeAlways {
      ConvergedTagsExact(g, t, rows, cols, adj);
      TagsWitness(m, g, t, rows, cols, adj);
    }
  }

  /** How main ends: one of its two argument errors, or the solved grid and
      the number of sweeps the loop ran. */
  datatype Outcome = BadDimensions | BadShape | Solved(paths: Matrix, sweeps: nat)

  /** main of solver-003 once the arguments are parsed and the file is
      read: reject non-positive dimensions, then a grid of the wrong shape,
      then solve with the 8-neighbour rule, recomputing every cell that is
      not blocked, keeping the direction tags. */
  method RunSolver003(rows: int, cols: int, m: seq<seq<int>>)
    returns (out: Outcome, directions: Directions, ghost gs: seq<Matrix>, ghost ts: seq<Directions>, ghost cs: seq<int>)
    ensures out.BadDimensions? <==> rows <= 0 || cols <= 0
    ensures out.BadShape? <==> 0 < rows && 0 < cols && !Shaped(m, rows, cols)
    ensures out.Solved? ==>
      && 0 < rows && 0 < cols && Shaped(m, rows, cols)
      && Shaped(out.paths, rows, cols) && Shaped(directions, rows, cols)
      && Stable(out.paths, rows, cols, King, RecomputeAlways)
      && (forall i, j | InRange(rows, cols, i, j) :: out.paths[i][j] <= m[i][j])
      && (forall i, j | InRange(rows, cols, i, j) && Frozen(m, rows, cols, RecomputeAlways, i, j) ::
            out.paths[i][j] == m[i][j] && directions[i][j] == NoDir)
      && (forall S: set<(int, int)> | Walled(m, rows, cols, King, S) :: forall x | x in S :: out.paths[x.0][x.1] == m[x.0][x.1])
      && TagsConsistent(out.paths, directions, rows, cols, King)
      && Tagged(m, out.paths, directions, rows, cols, King)
      && (forall i, j | IsInterior(rows, cols, i, j) && directions[i][j] != NoDir ::
            Look(out.paths, i, j, directions[i][j]) + 1 == out.paths[i][j])
      && 1 <= out.sweeps
      && RunOf(m, gs, ts, cs, rows, cols, King, RecomputeAlways)
      && |cs| == out.sweeps && gs[out.sweeps] == out.paths && ts[out.sweeps] == directions
  {
    directions := [];
    gs, ts, cs := [], [], [];
    if rows <= 0 || cols <= 0 {
      out := BadDimensions;
      return;
    }
    var ok := ValidateDimensions(rows, cols, m);
    if !ok {
      out := BadShape;
      return;
    }
    var g, t, sweeps, gs', ts', cs' := Solve(rows, cols, m, King, RecomputeAlways);
    out, directions, gs, ts, cs := Solved(g, sweeps), t, gs', ts', cs';
  }

  /** main of solver-001: the same checks, then the 8-neighbour rule
      recomputing only sentinel cells; it keeps no direction tags, and the
      values do not depend on them. */
  method RunSolver001(rows: int, cols: int, m: seq<seq<int>>)
    returns (out: Outcome, ghost gs: seq<Matrix>, ghost ts: seq<Directions>, ghost cs: seq<int>)
    ensures out.BadDimensions? <==> rows <= 0 || cols <= 0
    ensures out.BadShape? <==> 0 < rows && 0 < cols && !Shaped(m, rows, cols)
    ensures out.Solved? ==>
      && 0 < rows && 0 < cols && Shaped(m, rows, cols)
      && Shaped(out.paths, rows, cols)
      && Stable(out.paths, rows, cols, King, RecomputeEmpty)
      && (forall i, j | InRange(rows, cols, i, j) :: out.paths[i][j] <= m[i][j])
      && (forall lo | AtLeast(m, lo) :: AtLeast(out.paths, lo))
      && (forall i, j | InRange(rows, cols, i, j) && Frozen(m, rows, cols, RecomputeEmpty, i, j) ::
            out.paths[i][j] == m[i][j])
      && Witnessed(m, out.paths, rows, cols, King)
      && RunOf(m, gs, ts, cs, rows, cols, King, RecomputeEmpty)
      && |cs| == out.sweeps && gs[out.sweeps] == out.paths
      && (forall S: set<(int, int)> | Walled(m, rows, cols, King, S) :: forall x | x in S :: out.paths[x.0][x.1] == m[x.0][x.1])
      && 1 <= out.sweeps <= |Empties(m, rows, cols)| + 1
  {
    gs, ts, cs := [], [], [];
    if rows <= 0 || cols <= 0 {
      out := BadDimensions;
      return;
    }
    var ok := ValidateDimensionsNoBreak(rows, cols, m);
    if !ok {
      out := BadShape;
      return;
    }
    var g, _, sweeps, gs', ts', cs' := Solve(rows, cols, m, King, RecomputeEmpty);
    out, gs, ts, cs := Solved(g, sweeps), gs', ts', cs';
  }

  /** The open 2x2 grid with the destination in its top-left corner. */
  const OpenSquare: Matrix := [[6, 6, 6, 6], [6, 0, 5, 6], [6, 5, 5, 6], [6, 6, 6, 6]]

  /** Any run of solver-001's loop on the open 2x2 grid ends with the far
      corner at 1 or less: the first sweep settles it diagonally from the
      destination, and no later sweep raises it. */
  lemma OpenSquareCorner(gs: seq<Matrix>, ts: seq<Directions>, cs: seq<int>)
    requires RunOf(OpenSquare, gs, ts, cs, 2, 2, King, RecomputeEmpty)
    ensures gs[|cs|][2][2] <= 1
  {
    assert Swept(gs[0], ts[0], gs[1], ts[1], 2, 2, King, RecomputeEmpty, cs[0]);
    SettlesBesideZero(gs[0], ts[0], gs[1], ts[1], 2, 2, cs[0], 2, 2);
    TraceLowers(gs, ts, cs, 2, 2, King, RecomputeEmpty, 2, 2, |cs|);
  }

  /** No value rises along a trace. */
  lemma {:induction false} TraceLowers(gs: seq<Matrix>, ts: seq<Directions>, cs: seq<int>,
                                      rows: nat, cols: nat, adj: Adjacency, policy: Policy, i: int, j: int, k: nat)
    requires Trace(gs, ts, cs, rows, cols, adj, policy) && InRange(rows, cols, i, j) && 1 <= k <= |cs|
    ensures gs[k][i][j] <= gs[1][i][j]
  {
    if 1 < k {
      TraceLowers(gs, ts, cs, rows, cols, adj, policy, i, j, k - 1);
      SweptMonotone(gs[k - 1], ts[k - 1], gs[k], ts[k], rows, cols, adj, policy, cs[k - 1]);
    }
  }
}

=== FILE: sweep.dfy ===
/** One sweep (update_matrix): the interior is visited in row-major order and
    every cell the recompute policy selects is relaxed in place, so a cell
    already sees the new values of the cells visited before it. */
module Sweep {
  import opened Grid
  import opened NeighbourRules

  /** Which interior cells a sweep recomputes. RecomputeAlways (solver-003):
      every cell that is not blocked, value <= rows*cols+1. RecomputeEmpty
      (solver-001): only cells still holding the empty sentinel. */
  datatype Policy = RecomputeAlways | RecomputeEmpty

  predicate Recomputes(rows: nat, cols: nat, policy: Policy, v: int) {
    match policy
    case RecomputeAlways => v <= Empty(rows, cols)
    case RecomputeEmpty => v == Empty(rows, cols)
  }

  /** (i, j) comes strictly before (r, c) in row-major order. */
  predicate Precedes(i: int, j: int, r: int, c: int) {
    i < r || (i == r && j < c)
  }

  /** An interior cell the sweep has already visited on reaching (r, c). */
  predicate Visited(rows: nat, cols: nat, r: int, c: int, i: int, j: int) {
    IsInterior(rows, cols, i, j) && Precedes(i, j, r, c)
  }

  predicate InRange(rows: nat, cols: nat, i: int, j: int) {
    0 <= i < rows + 2 && 0 <= j < cols + 2
  }

  /** The grid as the sweep sees it on reaching (r, c): visited cells hold
      their value after the sweep (g'), all others their value before it (g). */
  function VisitView(g: Matrix, g': Matrix, rows: nat, cols: nat, r: int, c: int): (v: Matrix)
    requires Shaped(g, rows, cols) && Shaped(g', rows, cols)
    ensures Shaped(v, rows, cols)
  {
    seq(rows + 2, i requires 0 <= i < rows + 2 =>
      seq(cols + 2, j requires 0 <= j < cols + 2 =>
        if Visited(rows, cols, r, c, i, j) then g'[i][j] else g[i][j]))
  }

  /** What a sweep from (g, t) to (g', t') did to cell (i, j): a cell the
      policy selects gets the rule's value and tag computed on the grid as
      the sweep saw it there; every other cell, the border included, keeps
      its value and tag. */
  predicate CellSwept(g: Matrix, t: Directions, g': Matrix, t': Directions, rows: nat, cols: nat,
                      adj: Adjacency, policy: Policy, i: int, j: int)
    requires Shaped(g, rows, cols) && Shaped(t, rows, cols)
    requires Shaped(g', rows, cols) && Shaped(t', rows, cols)
    requires InRange(rows, cols, i, j)
  {
    if IsInterior(rows, cols, i, j) && Recomputes(rows, cols, policy, g[i][j]) then
      var res := MinAdjacent(VisitView(g, g', rows, cols, i, j), i, j, adj, t[i][j]);
      g'[i][j] == res.value && t'[i][j] == res.dir
    else
      g'[i][j] == g[i][j] && t'[i][j] == t[i][j]
  }

  /** The interior cells whose value differs between g and g'. */
  function Changed(g: Matrix, g': Matrix, rows: nat, cols: nat): set<(int, int)>
    requires Shaped(g, rows, cols) && Shaped(g', rows, cols)
  {
    set i, j | 1 <= i <= rows && 1 <= j <= cols && g'[i][j] != g[i][j] :: (i, j)
  }

  /** (g', t', changes) is the outcome of one sweep from (g, t): every cell is
      swept as CellSwept says, and changes counts the cells whose value was
      rewritten. */
  ghost predicate Swept(g: Matrix, t: Directions, g': Matrix, t': Directions, rows: nat, cols: nat,
                  adj: Adjacency, policy: Policy, changes: int)
    requires Shaped(g, rows, cols) && Shaped(t, rows, cols)
  {
    && Shaped(g', rows, cols) && Shaped(t', rows, cols)
    && (forall i, j | InRange(rows, cols, i, j) :: CellSwept(g, t, g', t', rows, cols, adj, policy, i, j))
    && changes == |Changed(g, g', rows, cols)|
  }

  /** The view at (r, c) of a grid that still agrees with g on every cell
      not yet visited is that grid itself. */
  lemma ViewOfCurrent(g: Matrix, g1: Matrix, rows: nat, cols: nat, r: int, c: int)
    requires Shaped(g, rows, cols) && Shaped(g1, rows, cols)
    requires forall i, j | InRange(rows, cols, i, j) && !Visited(rows, cols, r, c, i, j) :: g1[i][j] == g[i][j]
    ensures VisitView(g, g1, rows, cols, r, c) == g1
  {
    var v := VisitView(g, g1, rows, cols, r, c);
    forall i | 0 <= i < rows + 2
      ensures v[i] == g1[i]
    {
      assert forall j | 0 <= j < cols + 2 :: v[i][j] == g1[i][j];
    }
  }

  /** The view at (r, c) depends only on the cells visited before (r, c). */
  lemma ViewStable(g: Matrix, g1: Matrix, g2: Matrix, rows: nat, cols: nat, r: int, c: int)
    requires Shaped(g, rows, cols) && Shaped(g1, rows, cols) && Shaped(g2, rows, cols)
    requires forall i, j | InRange(rows, cols, i, j) && Visited(rows, cols, r, c, i, j) :: g1[i][j] == g2[i][j]
    ensures VisitView(g, g1, rows, cols, r, c) == VisitView(g, g2, rows, cols, r, c)
  {
    var v1 := VisitView(g, g1, rows, cols, r, c);
    var v2 := VisitView(g, g2, rows, cols, r, c);
    forall i | 0 <= i < rows + 2
      ensures v1[i] == v2[i]
    {
      assert forall j | 0 <= j < cols + 2 :: v1[i][j] == v2[i][j];
    }
  }

  /** g2 differs from g1 at most in cell (r, c). */
  ghost predicate SameExcept<T>(g1: seq<seq<T>>, g2: seq<seq<T>>, rows: nat, cols: nat, r: int, c: int)
    requires Shaped(g1, rows, cols) && Shaped(g2, rows, cols)
  {
    forall i, j | InRange(rows, cols, i, j) && (i, j) != (r, c) :: g2[i][j] == g1[i][j]
  }

  /** Rewriting the value of a not yet changed interior cell adds exactly that
      cell to the changed set; leaving it alone keeps the set. */
  lemma ChangedStep(g: Matrix, g1: Matrix, g2: Matrix, rows: nat, cols: nat, r: int, c: int)
    requires Shaped(g, rows, cols) && Shaped(g1, rows, cols) && Shaped(g2, rows, cols)
    requires IsInterior(rows, cols, r, c)
    requires g1[r][c] == g[r][c] && SameExcept(g1, g2, rows, cols, r, c)
    ensures (r, c) !in Changed(g, g1, rows, cols)
    ensures Changed(g, g2, rows, cols) ==
      if g2[r][c] != g1[r][c] then Changed(g, g1, rows, cols) + {(r, c)} else Changed(g, g1, rows, cols)
  {
    var before := Changed(g, g1, rows, cols);
    var after := Changed(g, g2, rows, cols);
    var expected := if g2[r][c] != g1[r][c] then before + {(r, c)} else before;
    forall x | x in after
      ensures x in expected
    {
      var i, j :| 1 <= i <= rows && 1 <= j <= cols && g2[i][j] != g[i][j] && x == (i, j);
      if x != (r, c) {
        assert g1[i][j] == g2[i][j];
      }
    }
    forall x | x in expected
      ensures x in after
    {
      if x != (r, c) {
        var i, j :| 1 <= i <= rows && 1 <= j <= cols && g1[i][j] != g[i][j] && x == (i, j);
        assert g1[i][j] == g2[i][j];
      }
    }
  }

  /** Facts that hold of the sweep's state on reaching (r, c). */
  ghost predicate Progress(g: Matrix, t: Directions, g': Matrix, t': Directions, rows: nat, cols: nat,
                     adj: Adjacency, policy: Policy, changes: int, r: int, c: int)
    requires Shaped(g, rows, cols) && Shaped(t, rows, cols)
  {
    && Shaped(g', rows, cols) && Shaped(t', rows, cols)
    && (forall i, j | InRange(rows, cols, i, j) && Visited(rows, cols, r, c, i, j) ::
          CellSwept(g, t, g', t', rows, cols, adj, policy, i, j))
    && (forall i, j | InRange(rows, cols, i, j) && !Visited(rows, cols, r, c, i, j) ::
          g'[i][j] == g[i][j] && t'[i][j] == t[i][j])
    && changes == |Changed(g, g', rows, cols)|
  }

  /** Writing cell (r, c) leaves the cells visited before it as swept. */
  lemma KeepVisited(g: Matrix, t: Directions, g1: Matrix, t1: Directions, g2: Matrix, t2: Directions,
                    rows: nat, cols: nat, adj: Adjacency, policy: Policy, r: int, c: int)
    requires Shaped(g, rows, cols) && Shaped(t, rows, cols)
    requires Shaped(g1, rows, cols) && Shaped(t1, rows, cols)
    requires Shaped(g2, rows, cols) && Shaped(t2, rows, cols)
    requires forall i, j | InRange(rows, cols, i, j) && Visited(rows, cols, r, c, i, j) ::
               CellSwept(g, t, g1, t1, rows, cols, adj, policy, i, j)
    requires SameExcept(g1, g2, rows, cols, r, c) && SameExcept(t1, t2, rows, cols, r, c)
    ensures forall i, j | InRange(rows, cols, i, j) && Visited(rows, cols, r, c, i, j) ::
               CellSwept(g, t, g2, t2, rows, cols, adj, policy, i, j)
  {
    forall i, j | InRange(rows, cols, i, j) && Visited(rows, cols, r, c, i, j)
      ensures CellSwept(g, t, g2, t2, rows, cols, adj, policy, i, j)
    {
      assert CellSwept(g, t, g1, t1, rows, cols, adj, policy, i, j);
      ViewStable(g, g1, g2, rows, cols, i, j);
    }
  }

  /** The cell being visited is swept as CellSwept says: its view is the
      current grid. */
  lemma SweepHere(g: Matrix, t: Directions, g1: Matrix, t1: Directions, g2: Matrix, t2: Directions,
                  rows: nat, cols: nat, adj: Adjacency, policy: Policy, r: int, c: int)
    requires Shaped(g, rows, cols) && Shaped(t, rows, cols)
    requires Shaped(g1, rows, cols) && Shaped(t1, rows, cols)
    requires Shaped(g2, rows, cols) && Shaped(t2, rows, cols)
    requires IsInterior(rows, cols, r, c)
    requires forall i, j | InRange(rows, cols, i, j) && !Visited(rows, cols, r, c, i, j) ::
               g1[i][j] == g[i][j] && t1[i][j] == t[i][j]
    requires SameExcept(g1, g2, rows, cols, r, c)
    requires Recomputes(rows, cols, policy, g1[r][c]) ==>
               var res := MinAdjacent(g1, r, c, adj, t1[r][c]);
               g2[r][c] == res.value && t2[r][c] == res.dir
    requires !Recomputes(rows, cols, policy, g1[r][c]) ==> g2[r][c] == g1[r][c] && t2[r][c] == t1[r][c]
    ensures CellSwept(g, t, g2, t2, rows, cols, adj, policy, r, c)
  {
    assert !Visited(rows, cols, r, c, r, c);
    ViewOfCurrent(g, g1, rows, cols, r, c);
    ViewStable(g, g1, g2, rows, cols, r, c);
  }

  /** Visiting (r, c) as the sweep does carries Progress from (r, c) to
      (r, c + 1). */
  lemma Advance(g: Matrix, t: Directions, g1: Matrix, t1: Directions, g2: Matrix, t2: Directions,
                rows: nat, cols: nat, adj: Adjacency, policy: Policy, changes1: int, changes2: int, r: int, c: int)
    requires Shaped(g, rows, cols) && Shaped(t, rows, cols)
    requires IsInterior(rows, cols, r, c)
    requires Progress(g, t, g1, t1, rows, cols, adj, policy, changes1, r, c)
    requires Shaped(g2, rows, cols) && Shaped(t2, rows, cols)
    requires SameExcept(g1, g2, rows, cols, r, c) && SameExcept(t1, t2, rows, cols, r, c)
    requires Recomputes(rows, cols, policy, g1[r][c]) ==>
               var res := MinAdjacent(g1, r, c, adj, t1[r][c]);
               g2[r][c] == res.value && t2[r][c] == res.dir
    requires !Recomputes(rows, cols, policy, g1[r][c]) ==> g2[r][c] == g1[r][c] && t2[r][c] == t1[r][c]
    requires changes2 == |Changed(g, g2, rows, cols)|
    ensures Progress(g, t, g2, t2, rows, cols, adj, policy, changes2, r, c + 1)
  {
    AdvanceVisited(g, t, g1, t1, g2, t2, rows, cols, adj, policy, r, c);
    AdvanceKept(g, t, g1, t1, g2, t2, rows, cols, r, c);
  }

  lemma AdvanceVisited(g: Matrix, t: Directions, g1: Matrix, t1: Directions, g2: Matrix, t2: Directions,
                       rows: nat, cols: nat, adj: Adjacency, policy: Policy, r: int, c: int)
    requires Shaped(g, rows, cols) && Shaped(t, rows, cols)
    requires Shaped(g1, rows, cols) && Shaped(t1, rows, cols)
    requires Shaped(g2, rows, cols) && Shaped(t2, rows, cols)
    requires IsInterior(rows, cols, r, c)
    requires forall i, j | InRange(rows, cols, i, j) && Visited(rows, cols, r, c, i, j) ::
               CellSwept(g, t, g1, t1, rows, cols, adj, policy, i, j)
    requires forall i, j | InRange(rows, cols, i, j) && !Visited(rows, cols, r, c, i, j) ::
               g1[i][j] == g[i][j] && t1[i][j] == t[i][j]
    requires SameExcept(g1, g2, rows, cols, r, c) && SameExcept(t1, t2, rows, cols, r, c)
    requires Recomputes(rows, cols, policy, g1[r][c]) ==>
               var res := MinAdjacent(g1, r, c, adj, t1[r][c]);
               g2[r][c] == res.value && t2[r][c] == res.dir
    requires !Recomputes(rows, cols, policy, g1[r][c]) ==> g2[r][c] == g1[r][c] && t2[r][c] == t1[r][c]
    ensures forall i, j | InRange(rows, cols, i, j) && Visited(rows, cols, r, c + 1, i, j) ::
               CellSwept(g, t, g2, t2, rows, cols, adj, policy, i, j)
  {
    SweepHere(g, t, g1, t1, g2, t2, rows, cols, adj, policy, r, c);
    KeepVisited(g, t, g1, t1, g2, t2, rows, cols, adj, policy, r, c);
    forall i, j | InRange(rows, cols, i, j) && Visited(rows, cols, r, c + 1, i, j)
      ensures CellSwept(g, t, g2, t2, rows, cols, adj, policy, i, j)
    {
      if (i, j) != (r, c) {
        assert Visited(rows, cols, r, c, i, j);
      }
    }
  }

  lemma AdvanceKept(g: Matrix, t: Directions, g1: Matrix, t1: Directions, g2: Matrix, t2: Directions,
                    rows: nat, cols: nat, r: int, c: int)
    requires Shaped(g, rows, cols) && Shaped(t, rows, cols)
    requires IsInterior(rows, cols, r, c)
    requires Shaped(g1, rows, cols) && Shaped(t1, rows, cols)
    requires Shaped(g2, rows, cols) && Shaped(t2, rows, cols)
    requires forall i, j | InRange(rows, cols, i, j) && !Visited(rows, cols, r, c, i, j) ::
               g1[i][j] == g[i][j] && t1[i][j] == t[i][j]
    requires SameExcept(g1, g2, rows, cols, r, c) && SameExcept(t1, t2, rows, cols, r, c)
    ensures forall i, j | InRange(rows, cols, i, j) && !Visited(rows, cols, r, c + 1, i, j) ::
               g2[i][j] == g[i][j] && t2[i][j] == t[i][j]
  {
    forall i, j | InRange(rows, cols, i, j) && !Visited(rows, cols, r, c + 1, i, j)
      ensures g2[i][j] == g[i][j] && t2[i][j] == t[i][j]
    {
      assert !Visited(rows, cols, r, c, i, j) && (i, j) != (r, c);
    }
  }

  /** The end of a row is the start of the next. */
  lemma NextRow(g: Matrix, t: Directions, g1: Matrix, t1: Directions, rows: nat, cols: nat,
                adj: Adjacency, policy: Policy, changes: int, r: int)
    requires Shaped(g, rows, cols) && Shaped(t, rows, cols)
    requires Progress(g, t, g1, t1, rows, cols, adj, policy, changes, r, cols + 1)
    ensures Progress(g, t, g1, t1, rows, cols, adj, policy, changes, r + 1, 1)
  {
    assert forall i, j | InRange(rows, cols, i, j) ::
      Visited(rows, cols, r, cols + 1, i, j) == Visited(rows, cols, r + 1, 1, i, j);
  }

  /** Once every interior cell is visited, Progress is Swept. */
  lemma Finish(g: Matrix, t: Directions, g1: Matrix, t1: Directions, rows: nat, cols: nat,
               adj: Adjacency, policy: Policy, changes: int)
    requires Shaped(g, rows, cols) && Shaped(t, rows, cols)
    requires Progress(g, t, g1, t1, rows, cols, adj, policy, changes, rows + 1, 1)
    ensures Swept(g, t, g1, t1, rows, cols, adj, policy, changes)
  {
    forall i, j | InRange(rows, cols, i, j)
      ensures CellSwept(g, t, g1, t1, rows, cols, adj, policy, i, j)
    {
      if !Visited(rows, cols, rows + 1, 1, i, j) {
        assert !IsInterior(rows, cols, i, j);
      }
    }
  }

  /** Writing one entry keeps the shape and touches nothing else. */
  lemma SetCell<T>(g: seq<seq<T>>, rows: nat, cols: nat, r: int, c: int, x: T)
    requires Shaped(g, rows, cols) && InRange(rows, cols, r, c)
    ensures var g' := g[r := g[r][c := x]];
      Shaped(g', rows, cols) && SameExcept(g, g', rows, cols, r, c) && g'[r][c] == x
  {
  }

  /** The body of the sweep for one interior cell: if the policy selects
      it, apply the rule, store the tag, and store the value if it differs;
      changed reports whether the value was rewritten. */
  method RelaxCell(rows: nat, cols: nat, g: Matrix, t: Directions, adj: Adjacency, policy: Policy, r: int, c: int)
    returns (g': Matrix, t': Directions, changed: bool)
    requires Shaped(g, rows, cols) && Shaped(t, rows, cols) && IsInterior(rows, cols, r, c)
    ensures Shaped(g', rows, cols) && Shaped(t', rows, cols)
    ensures SameExcept(g, g', rows, cols, r, c) && SameExcept(t, t', rows, cols, r, c)
    ensures Inner(g, r, c)
    ensures Recomputes(rows, cols, policy, g[r][c]) ==>
              var res := MinAdjacent(g, r, c, adj, t[r][c]);
              g'[r][c] == res.value && t'[r][c] == res.dir
    ensures !Recomputes(rows, cols, policy, g[r][c]) ==> g'[r][c] == g[r][c] && t'[r][c] == t[r][c]
    ensures changed <==> g'[r][c] != g[r][c]
  {
    g', t', changed := g, t, false;
    if Recomputes(rows, cols, policy, g[r][c]) {
      var res := MinAdjacent(g, r, c, adj, t[r][c]);
      t' := t[r := t[r][c := res.dir]];
      SetCell(t, rows, cols, r, c, res.dir);
      if res.value != g[r][c] {
        g' := g[r := g[r][c := res.value]];
        SetCell(g, rows, cols, r, c, res.value);
        changed := true;
      }
    }
  }

  /** One sweep over the interior in row-major order (update_matrix). It
      returns the new grid and tags and the number of cells whose value it
      rewrote. */
  method UpdateMatrix(rows: nat, cols: nat, g: Matrix, t: Directions, adj: Adjacency, policy: Policy)
    returns (g': Matrix, t': Directions, changes: nat)
    requires Shaped(g, rows, cols) && Shaped(t, rows, cols)
    ensures Swept(g, t, g', t', rows, cols, adj, policy, changes)
  {
    g', t', changes := g, t, 0;
    assert Changed(g, g', rows, cols) == {};
    var r := 1;
    while r <= rows
      invariant 1 <= r <= rows + 1
      invariant Shaped(g', rows, cols) && Shaped(t', rows, cols)
      invariant Progress(g, t, g', t', rows, cols, adj, policy, changes, r, 1)
    {
      g', t', changes := SweepRow(rows, cols, g, t, g', t', adj, policy, changes, r);
      r := r + 1;
    }
    Finish(g, t, g', t', rows, cols, adj, policy, changes);
  }

  /** The inner loop of the sweep: visits row r from left to right. */
  method SweepRow(rows: nat, cols: nat, g: Matrix, t: Directions, g0: Matrix, t0: Directions,
                  adj: Adjacency, policy: Policy, changes0: nat, r: int)
    returns (g': Matrix, t': Directions, changes: nat)
    requires Shaped(g, rows, cols) && Shaped(t, rows, cols)
    requires 1 <= r <= rows
    requires Progress(g, t, g0, t0, rows, cols, adj, policy, changes0, r, 1)
    ensures Shaped(g', rows, cols) && Shaped(t', rows, cols)
    ensures Progress(g, t, g', t', rows, cols, adj, policy, changes, r + 1, 1)
  {
    g', t', changes := g0, t0, changes0;
    var c := 1;
    while c <= cols
      invariant 1 <= c <= cols + 1
      invariant Progress(g, t, g', t', rows, cols, adj, policy, changes, r, c)
    {
      ghost var g1, t1, changes1 := g', t', changes;
      var changed;
      g', t', changed := RelaxCell(rows, cols, g', t', adj, policy, r, c);
      ChangedStep(g, g1, g', rows, cols, r, c);
      if changed {
        changes := changes + 1;
      }
      Advance(g, t, g1, t1, g', t', rows, cols, adj, policy, changes1, changes, r, c);
      c := c + 1;
    }
    assert c == cols + 1;
    NextRow(g, t, g', t', rows, cols, adj, policy, changes, r);
  }
}

=== FILE: sweep_facts.dfy ===
/** What one sweep guarantees, stated about the Swept relation that
    UpdateMatrix establishes. */
module SweepFacts {
  import opened Grid
  import opened NeighbourRules
  import opened Sweep

  /** The cells (r, c) a row-major induction passes through: every interior
      cell, the column just past each row, and the start of the row below the
      last one. */
  predicate Position(rows: nat, cols: nat, r: int, c: int) {
    (1 <= r <= rows && 1 <= c <= cols + 1) || (r == rows + 1 && c == 1)
  }

  /** The view of a sweep that has not yet changed any visited cell is the
      grid it started from. */
  lemma ViewOfUnchanged(g: Matrix, g1: Matrix, rows: nat, cols: nat, r: int, c: int)
    requires Shaped(g, rows, cols) && Shaped(g1, rows, cols)
    requires forall i, j | InRange(rows, cols, i, j) && Visited(rows, cols, r, c, i, j) :: g1[i][j] == g[i][j]
    ensures VisitView(g, g1, rows, cols, r, c) == g
  {
    var v := VisitView(g, g1, rows, cols, r, c);
    forall i | 0 <= i < rows + 2
      ensures v[i] == g[i]
    {
      assert forall j | 0 <= j < cols + 2 :: v[i][j] == g[i][j];
    }
  }

  /** Every view lies between the grid before and the grid after the sweep. */
  lemma ViewBetween(g: Matrix, g1: Matrix, rows: nat, cols: nat, r: int, c: int)
    requires Shaped(g, rows, cols) && Shaped(g1, rows, cols)
    requires forall i, j | InRange(rows, cols, i, j) :: g1[i][j] <= g[i][j]
    ensures var v := VisitView(g, g1, rows, cols, r, c);
      forall i, j | InRange(rows, cols, i, j) :: g1[i][j] <= v[i][j] <= g[i][j]
  {
  }

  /** A sweep never raises a value, and only the cells the policy selects
      may change: blocked cells, cells the policy skips, and the border keep
      their value and tag. A rewritten cell holds a strictly smaller value. */
  lemma SweptMonotone(g: Matrix, t: Directions, g': Matrix, t': Directions, rows: nat, cols: nat,
                      adj: Adjacency, policy: Policy, changes: int)
    requires Shaped(g, rows, cols) && Shaped(t, rows, cols)
    requires Swept(g, t, g', t', rows, cols, adj, policy, changes)
    ensures forall i, j | InRange(rows, cols, i, j) :: g'[i][j] <= g[i][j]
    ensures forall i, j | InRange(rows, cols, i, j) && !IsInterior(rows, cols, i, j) ::
              g'[i][j] == g[i][j] && t'[i][j] == t[i][j]
    ensures forall i, j | InRange(rows, cols, i, j) && !Recomputes(rows, cols, policy, g[i][j]) ::
              g'[i][j] == g[i][j] && t'[i][j] == t[i][j]
    ensures forall i, j | InRange(rows, cols, i, j) && IsBlocked(rows, cols, g[i][j]) ::
              g'[i][j] == g[i][j] && t'[i][j] == t[i][j]
    ensures forall x | x in Changed(g, g', rows, cols) :: g'[x.0][x.1] < g[x.0][x.1]
  {
    forall i, j | InRange(rows, cols, i, j)
      ensures g'[i][j] <= g[i][j]
    {
      assert CellSwept(g, t, g', t', rows, cols, adj, policy, i, j);
      if IsInterior(rows, cols, i, j) && Recomputes(rows, cols, policy, g[i][j]) {
        assert VisitView(g, g', rows, cols, i, j)[i][j] == g[i][j];
      }
    }
    forall i, j | InRange(rows, cols, i, j) && IsBlocked(rows, cols, g[i][j])
      ensures !Recomputes(rows, cols, policy, g[i][j])
    {
    }
  }

  /** P holds at every cell the sweep visited before reaching (r, c). */
  ghost predicate HoldsBefore(P: (int, int) -> bool, rows: nat, cols: nat, r: int, c: int) {
    forall i, j | Visited(rows, cols, r, c, i, j) :: P(i, j)
  }

  /** Row-major induction over the sweep order: a property that holds at an
      interior cell whenever it holds at every cell visited before it holds
      at every cell visited before any position. */
  lemma {:induction false} RowMajor(P: (int, int) -> bool, rows: nat, cols: nat, r: int, c: int)
    requires forall i, j | IsInterior(rows, cols, i, j) && HoldsBefore(P, rows, cols, i, j) :: P(i, j)
    requires Position(rows, cols, r, c)
    ensures HoldsBefore(P, rows, cols, r, c)
    decreases r, c
  {
    if c > 1 {
      RowMajor(P, rows, cols, r, c - 1);
      VisitedExtend(rows, cols, r, c);
    } else if r > 1 {
      RowMajor(P, rows, cols, r - 1, cols + 1);
      VisitedNextRow(rows, cols, r);
    }
  }

  /** The cells visited before (r, c) are those visited before (r, c - 1)
      and (r, c - 1) itself. */
  lemma VisitedExtend(rows: nat, cols: nat, r: int, c: int)
    requires Position(rows, cols, r, c) && c > 1
    ensures forall i, j :: Visited(rows, cols, r, c, i, j) <==>
              Visited(rows, cols, r, c - 1, i, j) || (i == r && j == c - 1)
  {
  }

  /** The start of a row has visited exactly what the end of the row above
      had. */
  lemma VisitedNextRow(rows: nat, cols: nat, r: int)
    requires 1 < r <= rows + 1
    ensures forall i, j :: Visited(rows, cols, r, 1, i, j) <==> Visited(rows, cols, r - 1, cols + 1, i, j)
  {
  }

  /** Every lower bound of the grid before a sweep bounds it after the sweep:
      each new value is the cell's own or a neighbour's value plus one. In
      particular a sweep keeps a non-negative grid non-negative. */
  lemma SweptKeepsLowerBound(g: Matrix, t: Directions, g': Matrix, t': Directions, rows: nat, cols: nat,
                             adj: Adjacency, policy: Policy, changes: int, lo: int)
    requires Shaped(g, rows, cols) && Shaped(t, rows, cols)
    requires Swept(g, t, g', t', rows, cols, adj, policy, changes)
    requires AtLeast(g, lo)
    ensures AtLeast(g', lo)
  {
    var P := (i: int, j: int) => !InRange(rows, cols, i, j) || lo <= g'[i][j];
    forall i, j | IsInterior(rows, cols, i, j) && HoldsBefore(P, rows, cols, i, j)
      ensures P(i, j)
    {
      assert forall i', j' | InRange(rows, cols, i', j') && Visited(rows, cols, i, j, i', j') :: lo <= g'[i'][j'];
      LowerBoundCell(g, t, g', t', rows, cols, adj, policy, lo, i, j);
    }
    RowMajor(P, rows, cols, rows + 1, 1);
    forall i, j | 0 <= i < |g'| && 0 <= j < |g'[i]|
      ensures lo <= g'[i][j]
    {
      assert InRange(rows, cols, i, j);
      if IsInterior(rows, cols, i, j) {
        assert Visited(rows, cols, rows + 1, 1, i, j);
      } else {
        assert CellSwept(g, t, g', t', rows, cols, adj, policy, i, j);
      }
    }
  }

  /** The step of SweptKeepsLowerBound at one interior cell. */
  lemma LowerBoundCell(g: Matrix, t: Directions, g': Matrix, t': Directions, rows: nat, cols: nat,
                       adj: Adjacency, policy: Policy, lo: int, i: int, j: int)
    requires Shaped(g, rows, cols) && Shaped(t, rows, cols)
    requires Shaped(g', rows, cols) && Shaped(t', rows, cols) && IsInterior(rows, cols, i, j)
    requires CellSwept(g, t, g', t', rows, cols, adj, policy, i, j)
    requires AtLeast(g, lo)
    requires forall i', j' | InRange(rows, cols, i', j') && Visited(rows, cols, i, j, i', j') :: lo <= g'[i'][j']
    ensures lo <= g'[i][j]
  {
    if Recomputes(rows, cols, policy, g[i][j]) {
      ViewRelaxBound(g, g', rows, cols, adj, t[i][j], lo, i, j);
    }
  }

  /** If lo bounds g and the visited part of g', it bounds the rule's value
      on the view. */
  lemma ViewRelaxBound(g: Matrix, g': Matrix, rows: nat, cols: nat, adj: Adjacency, tag: Dir, lo: int, r: int, c: int)
    requires Shaped(g, rows, cols) && Shaped(g', rows, cols) && IsInterior(rows, cols, r, c)
    requires AtLeast(g, lo)
    requires forall i, j | InRange(rows, cols, i, j) && Visited(rows, cols, r, c, i, j) :: lo <= g'[i][j]
    ensures lo <= MinAdjacent(VisitView(g, g', rows, cols, r, c), r, c, adj, tag).value
  {
    var v := VisitView(g, g', rows, cols, r, c);
    forall i, j | 0 <= i < |v| && 0 <= j < |v[i]|
      ensures lo <= v[i][j]
    {
      assert InRange(rows, cols, i, j);
    }
    RelaxBound(v, r, c, adj, tag, lo);
  }

  lemma RelaxBound(m: Matrix, r: int, c: int, adj: Adjacency, tag: Dir, lo: int)
    requires Inner(m, r, c)
    requires AtLeast(m, lo)
    ensures lo <= MinAdjacent(m, r, c, adj, tag).value
  {
    var res := MinAdjacent(m, r, c, adj, tag);
    LookAtLeast(m, r, c, res.dir, lo);
  }

  lemma LookAtLeast(m: Matrix, r: int, c: int, d: Dir, lo: int)
    requires Inner(m, r, c)
    requires AtLeast(m, lo)
    ensures lo <= Look(m, r, c, d)
  {
    var n := Step((r, c), d);
    assert 0 <= n.0 < |m| && 0 <= n.1 < |m[n.0]|;
  }

  /** A grid is stable when every cell the policy selects is within one of
      each of its neighbours: value <= neighbour + 1. */
  ghost predicate Stable(g: Matrix, rows: nat, cols: nat, adj: Adjacency, policy: Policy)
    requires Shaped(g, rows, cols)
  {
    forall i, j | IsInterior(rows, cols, i, j) && Recomputes(rows, cols, policy, g[i][j]) ::
      forall d | d in Neighbours(adj) :: g[i][j] <= Look(g, i, j, d) + 1
  }

  /** A sweep that rewrites no value leaves a stable grid behind. */
  lemma QuietSweepIsStable(g: Matrix, t: Directions, g': Matrix, t': Directions, rows: nat, cols: nat,
                           adj: Adjacency, policy: Policy, changes: int)
    requires Shaped(g, rows, cols) && Shaped(t, rows, cols)
    requires Swept(g, t, g', t', rows, cols, adj, policy, changes)
    requires changes == 0
    ensures g' == g
    ensures Stable(g, rows, cols, adj, policy)
  {
    assert Changed(g, g', rows, cols) == {};
    forall i, j | InRange(rows, cols, i, j)
      ensures g'[i][j] == g[i][j]
    {
      assert CellSwept(g, t, g', t', rows, cols, adj, policy, i, j);
      if IsInterior(rows, cols, i, j) {
        assert (i, j) !in Changed(g, g', rows, cols);
      }
    }
    SameGrid(g, g', rows, cols);
    forall i, j | IsInterior(rows, cols, i, j) && Recomputes(rows, cols, policy, g[i][j])
      ensures forall d | d in Neighbours(adj) :: g[i][j] <= Look(g, i, j, d) + 1
    {
      assert CellSwept(g, t, g', t', rows, cols, adj, policy, i, j);
      ViewOfUnchanged(g, g', rows, cols, i, j);
    }
  }

  /** Two shaped grids that agree entry by entry are equal. */
  lemma SameGrid<T>(g1: seq<seq<T>>, g2: seq<seq<T>>, rows: nat, cols: nat)
    requires Shaped(g1, rows, cols) && Shaped(g2, rows, cols)
    requires forall i, j | InRange(rows, cols, i, j) :: g1[i][j] == g2[i][j]
    ensures g1 == g2
  {
    forall i | 0 <= i < rows + 2
      ensures g1[i] == g2[i]
    {
      assert forall j | 0 <= j < cols + 2 :: g1[i][j] == g2[i][j];
    }
  }

  /** Conversely, a sweep over a stable grid rewrites nothing. Together with
      QuietSweepIsStable: a sweep reports zero changes exactly when the grid
      it started from is stable. */
  lemma StableSweepIsQuiet(g: Matrix, t: Directions, g': Matrix, t': Directions, rows: nat, cols: nat,
                           adj: Adjacency, policy: Policy, changes: int)
    requires Shaped(g, rows, cols) && Shaped(t, rows, cols)
    requires Swept(g, t, g', t', rows, cols, adj, policy, changes)
    requires Stable(g, rows, cols, adj, policy)
    ensures changes == 0 && g' == g
  {
    var P := (i: int, j: int) => !InRange(rows, cols, i, j) || g'[i][j] == g[i][j];
    forall i, j | IsInterior(rows, cols, i, j) && HoldsBefore(P, rows, cols, i, j)
      ensures P(i, j)
    {
      assert forall i', j' | InRange(rows, cols, i', j') && Visited(rows, cols, i, j, i', j') :: P(i', j');
      ViewOfUnchanged(g, g', rows, cols, i, j);
      assert CellSwept(g, t, g', t', rows, cols, adj, policy, i, j);
      if Recomputes(rows, cols, policy, g[i][j]) {
        QuietCell(g, rows, cols, adj, policy, t[i][j], i, j);
      }
    }
    RowMajor(P, rows, cols, rows + 1, 1);
    forall i, j | InRange(rows, cols, i, j)
      ensures g'[i][j] == g[i][j]
    {
      if IsInterior(rows, cols, i, j) {
        assert Visited(rows, cols, rows + 1, 1, i, j);
      } else {
        assert CellSwept(g, t, g', t', rows, cols, adj, policy, i, j);
      }
    }
    SameGrid(g, g', rows, cols);
    assert Changed(g, g', rows, cols) == {};
  }

  /** On a stable grid the rule gives every selected cell its own value. */
  lemma QuietCell(g: Matrix, rows: nat, cols: nat, adj: Adjacency, policy: Policy, tag: Dir, r: int, c: int)
    requires Shaped(g, rows, cols)
    requires Stable(g, rows, cols, adj, policy)
    requires IsInterior(rows, cols, r, c) && Recomputes(rows, cols, policy, g[r][c])
    ensures MinAdjacent(g, r, c, adj, tag).value == g[r][c]
  {
    var res := MinAdjacent(g, r, c, adj, tag);
    assert IsNeighbourMin(g, r, c, adj, g[r][c]);
    NeighbourMinUnique(g, r, c, adj, res.value, g[r][c]);
  }

  /** Sweep results are unique: Swept pins down the new values, tags and
      change count completely. */
  lemma SweptUnique(g: Matrix, t: Directions, g1: Matrix, t1: Directions, g2: Matrix, t2: Directions,
                    rows: nat, cols: nat, adj: Adjacency, policy: Policy, changes1: int, changes2: int)
    requires Shaped(g, rows, cols) && Shaped(t, rows, cols)
    requires Swept(g, t, g1, t1, rows, cols, adj, policy, changes1)
    requires Swept(g, t, g2, t2, rows, cols, adj, policy, changes2)
    ensures g1 == g2 && t1 == t2 && changes1 == changes2
  {
    var P := (i: int, j: int) => !InRange(rows, cols, i, j) || (g1[i][j] == g2[i][j] && t1[i][j] == t2[i][j]);
    forall i, j | IsInterior(rows, cols, i, j) && HoldsBefore(P, rows, cols, i, j)
      ensures P(i, j)
    {
      assert forall i', j' | InRange(rows, cols, i', j') && Visited(rows, cols, i, j, i', j') :: P(i', j');
      ViewStable(g, g1, g2, rows, cols, i, j);
      assert CellSwept(g, t, g1, t1, rows, cols, adj, policy, i, j);
      assert CellSwept(g, t, g2, t2, rows, cols, adj, policy, i, j);
    }
    RowMajor(P, rows, cols, rows + 1, 1);
    forall i, j | InRange(rows, cols, i, j)
      ensures g1[i][j] == g2[i][j] && t1[i][j] == t2[i][j]
    {
      if IsInterior(rows, cols, i, j) {
        assert Visited(rows, cols, rows + 1, 1, i, j);
      } else {
        assert CellSwept(g, t, g1, t1, rows, cols, adj, policy, i, j);
        assert CellSwept(g, t, g2, t2, rows, cols, adj, policy, i, j);
      }
    }
    SameGrid(g1, g2, rows, cols);
    SameGrid(t1, t2, rows, cols);
  }

  /** Each cell a sweep selects gets the value of solver-001's tag-free
      rule on its view: the tag it carried does not enter the value. */
  lemma SweptIsTagFree(g: Matrix, t: Directions, g': Matrix, t': Directions, rows: nat, cols: nat,
                       adj: Adjacency, policy: Policy, changes: int)
    requires Shaped(g, rows, cols) && Shaped(t, rows, cols)
    requires Swept(g, t, g', t', rows, cols, adj, policy, changes)
    ensures forall i, j | IsInterior(rows, cols, i, j) && Recomputes(rows, cols, policy, g[i][j]) ::
              g'[i][j] == MinAdjacentValue(VisitView(g, g', rows, cols, i, j), i, j, adj)
  {
    forall i, j | IsInterior(rows, cols, i, j) && Recomputes(rows, cols, policy, g[i][j])
      ensures g'[i][j] == MinAdjacentValue(VisitView(g, g', rows, cols, i, j), i, j, adj)
    {
      assert CellSwept(g, t, g', t', rows, cols, adj, policy, i, j);
      ValueIgnoresTag(VisitView(g, g', rows, cols, i, j), i, j, adj, t[i][j], NoDir);
    }
  }

  /** The value part of a sweep does not depend on the tags it starts from:
      solver-001, which keeps no tags, computes the same values and the same
      change count as the tagged sweep. */
  lemma SweptValuesIgnoreTags(g: Matrix, t1: Directions, g1: Matrix, t1': Directions,
                              t2: Directions, g2: Matrix, t2': Directions,
                              rows: nat, cols: nat, adj: Adjacency, policy: Policy, changes1: int, changes2: int)
    requires Shaped(g, rows, cols) && Shaped(t1, rows, cols) && Shaped(t2, rows, cols)
    requires Swept(g, t1, g1, t1', rows, cols, adj, policy, changes1)
    requires Swept(g, t2, g2, t2', rows, cols, adj, policy, changes2)
    ensures g1 == g2 && changes1 == changes2
  {
    var P := (i: int, j: int) => !InRange(rows, cols, i, j) || g1[i][j] == g2[i][j];
    forall i, j | IsInterior(rows, cols, i, j) && HoldsBefore(P, rows, cols, i, j)
      ensures P(i, j)
    {
      assert forall i', j' | InRange(rows, cols, i', j') && Visited(rows, cols, i, j, i', j') :: P(i', j');
      ViewStable(g, g1, g2, rows, cols, i, j);
      assert CellSwept(g, t1, g1, t1', rows, cols, adj, policy, i, j);
      assert CellSwept(g, t2, g2, t2', rows, cols, adj, policy, i, j);
      SameValueCell(g, t1, g1, t1', t2, g2, t2', rows, cols, adj, policy, i, j);
    }
    RowMajor(P, rows, cols, rows + 1, 1);
    forall i, j | InRange(rows, cols, i, j)
      ensures g1[i][j] == g2[i][j]
    {
      if IsInterior(rows, cols, i, j) {
        assert Visited(rows, cols, rows + 1, 1, i, j);
      } else {
        assert CellSwept(g, t1, g1, t1', rows, cols, adj, policy, i, j);
        assert CellSwept(g, t2, g2, t2', rows, cols, adj, policy, i, j);
      }
    }
    SameGrid(g1, g2, rows, cols);
  }

  lemma SameValueCell(g: Matrix, t1: Directions, g1: Matrix, t1': Directions,
                      t2: Directions, g2: Matrix, t2': Directions,
                      rows: nat, cols: nat, adj: Adjacency, policy: Policy, i: int, j: int)
    requires Shaped(g, rows, cols) && Shaped(t1, rows, cols) && Shaped(t2, rows, cols)
    requires Shaped(g1, rows, cols) && Shaped(t1', rows, cols) && Shaped(g2, rows, cols) && Shaped(t2', rows, cols)
    requires IsInterior(rows, cols, i, j)
    requires CellSwept(g, t1, g1, t1', rows, cols, adj, policy, i, j)
    requires CellSwept(g, t2, g2, t2', rows, cols, adj, policy, i, j)
    requires VisitView(g, g1, rows, cols, i, j) == VisitView(g, g2, rows, cols, i, j)
    ensures g1[i][j] == g2[i][j]
  {
    if Recomputes(rows, cols, policy, g[i][j]) {
      var v := VisitView(g, g1, rows, cols, i, j);
      assert Inner(v, i, j);
      ValueIgnoresTag(v, i, j, adj, t1[i][j], t2[i][j]);
    }
  }

  /** Reading a neighbour is monotone in the grid read. */
  lemma LookMonotone(m1: Matrix, m2: Matrix, rows: nat, cols: nat, r: int, c: int, d: Dir)
    requires Shaped(m1, rows, cols) && Shaped(m2, rows, cols)
    requires IsInterior(rows, cols, r, c)
    requires forall i, j | InRange(rows, cols, i, j) :: m1[i][j] <= m2[i][j]
    ensures Inner(m1, r, c) && Inner(m2, r, c)
    ensures Look(m1, r, c, d) <= Look(m2, r, c, d)
  {
    var n := Step((r, c), d);
    assert InRange(rows, cols, n.0, n.1);
  }

  /** Tag d of interior cell (i, j) is consistent: it is empty, or it names
      a neighbour of the rule at least one step closer to the destination
      and the cell is not blocked. */
  predicate TagOk(g: Matrix, rows: nat, cols: nat, adj: Adjacency, i: int, j: int, d: Dir)
    requires Shaped(g, rows, cols) && IsInterior(rows, cols, i, j)
  {
    d != NoDir ==> d in Neighbours(adj) && g[i][j] <= Empty(rows, cols) && Look(g, i, j, d) + 1 <= g[i][j]
  }

  /** Every tag of the interior is consistent. */
  ghost predicate TagsConsistent(g: Matrix, t: Directions, rows: nat, cols: nat, adj: Adjacency)
    requires Shaped(g, rows, cols) && Shaped(t, rows, cols)
  {
    forall i, j | IsInterior(rows, cols, i, j) :: TagOk(g, rows, cols, adj, i, j, t[i][j])
  }

  /** A sweep keeps the tags consistent: a tag written during the sweep
      names a neighbour one step closer on the view, and neighbours only
      get closer afterwards. */
  lemma SweptKeepsTagsConsistent(g: Matrix, t: Directions, g': Matrix, t': Directions, rows: nat, cols: nat,
                                 adj: Adjacency, policy: Policy, changes: int)
    requires Shaped(g, rows, cols) && Shaped(t, rows, cols)
    requires Swept(g, t, g', t', rows, cols, adj, policy, changes)
    requires TagsConsistent(g, t, rows, cols, adj)
    ensures TagsConsistent(g', t', rows, cols, adj)
  {
    SweptMonotone(g, t, g', t', rows, cols, adj, policy, changes);
    forall i, j | IsInterior(rows, cols, i, j)
      ensures TagOk(g', rows, cols, adj, i, j, t'[i][j])
    {
      assert CellSwept(g, t, g', t', rows, cols, adj, policy, i, j);
      TagCell(g, t, g', t', rows, cols, adj, policy, i, j);
    }
  }

  lemma TagCell(g: Matrix, t: Directions, g': Matrix, t': Directions, rows: nat, cols: nat,
                adj: Adjacency, policy: Policy, i: int, j: int)
    requires Shaped(g, rows, cols) && Shaped(t, rows, cols)
    requires Shaped(g', rows, cols) && Shaped(t', rows, cols)
    requires IsInterior(rows, cols, i, j)
    requires CellSwept(g, t, g', t', rows, cols, adj, policy, i, j)
    requires forall i', j' | InRange(rows, cols, i', j') :: g'[i'][j'] <= g[i'][j']
    requires TagOk(g, rows, cols, adj, i, j, t[i][j])
    ensures TagOk(g', rows, cols, adj, i, j, t'[i][j])
  {
    if Recomputes(rows, cols, policy, g[i][j]) {
      var v := VisitView(g, g', rows, cols, i, j);
      ViewBetween(g, g', rows, cols, i, j);
      assert v[i][j] == g[i][j];
      if t[i][j] != NoDir {
        LookMonotone(v, g, rows, cols, i, j, t[i][j]);
      }
      RelaxKeepsTag(v, g', rows, cols, adj, t[i][j], i, j);
    } else if t'[i][j] != NoDir {
      LookMonotone(g', g, rows, cols, i, j, t'[i][j]);
    }
  }

  /** The rule applied to a view whose tag is consistent gives a consistent
      tag, also against any grid below the view that holds the new value. */
  lemma RelaxKeepsTag(v: Matrix, g': Matrix, rows: nat, cols: nat, adj: Adjacency, tag: Dir, i: int, j: int)
    requires Shaped(v, rows, cols) && Shaped(g', rows, cols) && IsInterior(rows, cols, i, j)
    requires forall i', j' | InRange(rows, cols, i', j') :: g'[i'][j'] <= v[i'][j']
    requires v[i][j] <= Empty(rows, cols) && TagOk(v, rows, cols, adj, i, j, tag)
    requires g'[i][j] == MinAdjacent(v, i, j, adj, tag).value
    ensures TagOk(g', rows, cols, adj, i, j, MinAdjacent(v, i, j, adj, tag).dir)
  {
    var res := MinAdjacent(v, i, j, adj, tag);
    LookMonotone(g', v, rows, cols, i, j, res.dir);
  }

  /** Once the sweep under RecomputeAlways is quiet, every tag is exact: the
      tagged cell is exactly one step further than the neighbour it names,
      so following tags descends one step at a time. */
  lemma ConvergedTagsExact(g: Matrix, t: Directions, rows: nat, cols: nat, adj: Adjacency)
    requires Shaped(g, rows, cols) && Shaped(t, rows, cols)
    requires Stable(g, rows, cols, adj, RecomputeAlways)
    requires TagsConsistent(g, t, rows, cols, adj)
    ensures forall i, j | IsInterior(rows, cols, i, j) && t[i][j] != NoDir ::
              Look(g, i, j, t[i][j]) + 1 == g[i][j]
  {
    forall i, j | IsInterior(rows, cols, i, j) && t[i][j] != NoDir
      ensures Look(g, i, j, t[i][j]) + 1 == g[i][j]
    {
      assert TagOk(g, rows, cols, adj, i, j, t[i][j]);
      assert Recomputes(rows, cols, RecomputeAlways, g[i][j]);
    }
  }

  /** Every interior cell whose value has dropped below its starting value
      in m carries a tag naming one of the rule's neighbours. */
  ghost predicate Tagged(m: Matrix, g: Matrix, t: Directions, rows: nat, cols: nat, adj: Adjacency)
    requires Shaped(m, rows, cols) && Shaped(g, rows, cols) && Shaped(t, rows, cols)
  {
    forall i, j | IsInterior(rows, cols, i, j) && g[i][j] < m[i][j] :: t[i][j] in Neighbours(adj)
  }

  /** A sweep keeps every lowered cell tagged: the rule either leaves a
      cell's value and tag alone or writes a neighbour's tag with the new
      value. */
  lemma SweptKeepsTagged(m: Matrix, g: Matrix, t: Directions, g': Matrix, t': Directions, rows: nat, cols: nat,
                         adj: Adjacency, policy: Policy, changes: int)
    requires Shaped(m, rows, cols) && Shaped(g, rows, cols) && Shaped(t, rows, cols)
    requires Swept(g, t, g', t', rows, cols, adj, policy, changes)
    requires Tagged(m, g, t, rows, cols, adj)
    ensures Tagged(m, g', t', rows, cols, adj)
  {
    forall i, j | IsInterior(rows, cols, i, j) && g'[i][j] < m[i][j]
      ensures t'[i][j] in Neighbours(adj)
    {
      assert CellSwept(g, t, g', t', rows, cols, adj, policy, i, j);
      if Recomputes(rows, cols, policy, g[i][j]) {
        RelaxTagged(g, g', rows, cols, adj, t[i][j], i, j);
      }
    }
  }

  /** The rule on the sweep's view of (r, c) keeps the cell's value and tag
      from before the sweep, or writes the tag of a rule neighbour. */
  lemma RelaxTagged(g: Matrix, g': Matrix, rows: nat, cols: nat, adj: Adjacency, tag: Dir, r: int, c: int)
    requires Shaped(g, rows, cols) && Shaped(g', rows, cols) && IsInterior(rows, cols, r, c)
    ensures var res := MinAdjacent(VisitView(g, g', rows, cols, r, c), r, c, adj, tag);
      res == Relaxed(g[r][c], tag) || res.dir in Neighbours(adj)
  {
    var v := VisitView(g, g', rows, cols, r, c);
    assert v[r][c] == g[r][c];
  }

  /** Cell (r, c) is walled in: every neighbour the rule reads is blocked. */
  predicate Enclosed(g: Matrix, rows: nat, cols: nat, adj: Adjacency, r: int, c: int)
    requires Shaped(g, rows, cols) && IsInterior(rows, cols, r, c)
  {
    forall d | d in Neighbours(adj) :: IsBlocked(rows, cols, Look(g, r, c, d))
  }

  /** A walled-in cell keeps its value through a sweep, and stays walled in:
      an empty cell that cannot reach the destination keeps the sentinel. */
  lemma SweptKeepsEnclosed(g: Matrix, t: Directions, g': Matrix, t': Directions, rows: nat, cols: nat,
                           adj: Adjacency, policy: Policy, changes: int, r: int, c: int)
    requires Shaped(g, rows, cols) && Shaped(t, rows, cols)
    requires Swept(g, t, g', t', rows, cols, adj, policy, changes)
    requires IsInterior(rows, cols, r, c) && Enclosed(g, rows, cols, adj, r, c)
    ensures g'[r][c] == g[r][c]
    ensures Enclosed(g', rows, cols, adj, r, c)
  {
    SweptMonotone(g, t, g', t', rows, cols, adj, policy, changes);
    EnclosedKept(g, g', rows, cols, adj, r, c);
    assert CellSwept(g, t, g', t', rows, cols, adj, policy, r, c);
    if Recomputes(rows, cols, policy, g[r][c]) {
      EnclosedView(g, g', rows, cols, adj, r, c);
      EnclosedCell(VisitView(g, g', rows, cols, r, c), rows, cols, adj, t[r][c], r, c);
    }
  }

  /** Blocked cells that keep their values keep a cell walled in. */
  lemma EnclosedKept(g: Matrix, g': Matrix, rows: nat, cols: nat, adj: Adjacency, r: int, c: int)
    requires Shaped(g, rows, cols) && Shaped(g', rows, cols)
    requires forall i, j | InRange(rows, cols, i, j) && IsBlocked(rows, cols, g[i][j]) :: g'[i][j] == g[i][j]
    requires IsInterior(rows, cols, r, c) && Enclosed(g, rows, cols, adj, r, c)
    ensures Enclosed(g', rows, cols, adj, r, c)
  {
    forall d | d in Neighbours(adj)
      ensures IsBlocked(rows, cols, Look(g', r, c, d))
    {
      var n := Step((r, c), d);
      assert InRange(rows, cols, n.0, n.1);
    }
  }

  /** The sweep's view of a walled-in cell is walled in, and holds the
      cell's value from before the sweep. */
  lemma EnclosedView(g: Matrix, g': Matrix, rows: nat, cols: nat, adj: Adjacency, r: int, c: int)
    requires Shaped(g, rows, cols) && Shaped(g', rows, cols)
    requires forall i, j | InRange(rows, cols, i, j) :: g'[i][j] <= g[i][j]
    requires IsInterior(rows, cols, r, c) && Enclosed(g', rows, cols, adj, r, c)
    ensures var v := VisitView(g, g', rows, cols, r, c);
      Enclosed(v, rows, cols, adj, r, c) && v[r][c] == g[r][c]
  {
    var v := VisitView(g, g', rows, cols, r, c);
    ViewBetween(g, g', rows, cols, r, c);
    forall d | d in Neighbours(adj)
      ensures IsBlocked(rows, cols, Look(v, r, c, d))
    {
      LookMonotone(g', v, rows, cols, r, c, d);
    }
  }

  /** The rule leaves a walled-in cell that is not blocked at its own value. */
  lemma EnclosedCell(m: Matrix, rows: nat, cols: nat, adj: Adjacency, tag: Dir, r: int, c: int)
    requires Shaped(m, rows, cols) && IsInterior(rows, cols, r, c)
    requires Enclosed(m, rows, cols, adj, r, c) && m[r][c] <= Empty(rows, cols)
    ensures MinAdjacent(m, r, c, adj, tag).value == m[r][c]
  {
  }

  /** The sweep works in place: on the single row [0, empty, empty] of a
      1 x 3 grid (sentinel 4, walls 5) one sweep settles both empty cells,
      because the third cell already sees the second one's new value. A
      sweep computing every cell from the old grid would leave the third
      cell at 4. */
  lemma InPlaceSweep(t: Directions, g': Matrix, t': Directions, changes: int)
    requires Shaped(t, 1, 3)
    requires Swept(RowStart, t, g', t', 1, 3, King, RecomputeAlways, changes)
    ensures g'[1] == [5, 0, 1, 2, 5]
    ensures t'[1][2] == W && t'[1][3] == W
    ensures changes == 2
  {
    InPlaceRow(t, g', t', changes);
    InPlaceChanged(g');
  }

  lemma InPlaceRow(t: Directions, g': Matrix, t': Directions, changes: int)
    requires Shaped(t, 1, 3)
    requires Swept(RowStart, t, g', t', 1, 3, King, RecomputeAlways, changes)
    ensures g'[1] == [5, 0, 1, 2, 5]
    ensures t'[1][2] == W && t'[1][3] == W
  {
    InPlaceBorder(t, g', t', changes);
    InPlaceFirst(t, g', t', changes);
    InPlaceSecond(t, g', t', changes);
    InPlaceThird(t, g', t', changes);
    assert |g'[1]| == 5;
  }

  lemma InPlaceChanged(g': Matrix)
    requires Shaped(g', 1, 3) && g'[1] == [5, 0, 1, 2, 5]
    ensures Changed(RowStart, g', 1, 3) == {(1, 2), (1, 3)}
  {
  }

  lemma InPlaceBorder(t: Directions, g': Matrix, t': Directions, changes: int)
    requires Shaped(t, 1, 3)
    requires Swept(RowStart, t, g', t', 1, 3, King, RecomputeAlways, changes)
    ensures g'[1][0] == 5 && g'[1][4] == 5
  {
    assert CellSwept(RowStart, t, g', t', 1, 3, King, RecomputeAlways, 1, 0);
    assert CellSwept(RowStart, t, g', t', 1, 3, King, RecomputeAlways, 1, 4);
  }

  lemma InPlaceFirst(t: Directions, g': Matrix, t': Directions, changes: int)
    requires Shaped(t, 1, 3)
    requires Swept(RowStart, t, g', t', 1, 3, King, RecomputeAlways, changes)
    ensures g'[1][1] == 0
  {
    assert CellSwept(RowStart, t, g', t', 1, 3, King, RecomputeAlways, 1, 1);
    RowStartView(g', 1, 1);
    RowStartFirst(t[1][1]);
  }

  lemma InPlaceSecond(t: Directions, g': Matrix, t': Directions, changes: int)
    requires Shaped(t, 1, 3)
    requires Swept(RowStart, t, g', t', 1, 3, King, RecomputeAlways, changes)
    requires g'[1][1] == 0
    ensures g'[1][2] == 1 && t'[1][2] == W
  {
    assert CellSwept(RowStart, t, g', t', 1, 3, King, RecomputeAlways, 1, 2);
    RowStartView(g', 1, 2);
    RowStartSecond(t[1][2]);
  }

  lemma InPlaceThird(t: Directions, g': Matrix, t': Directions, changes: int)
    requires Shaped(t, 1, 3)
    requires Swept(RowStart, t, g', t', 1, 3, King, RecomputeAlways, changes)
    requires g'[1][1] == 0 && g'[1][2] == 1
    ensures g'[1][3] == 2 && t'[1][3] == W
  {
    assert CellSwept(RowStart, t, g', t', 1, 3, King, RecomputeAlways, 1, 3);
    RowMidView(g', 1, 3);
    RowMidThird(t[1][3]);
  }

  /** The grid of InPlaceSweep before the sweep. */
  const RowStart: Matrix := [[5, 5, 5, 5, 5], [5, 0, 4, 4, 5], [5, 5, 5, 5, 5]]

  /** The same grid once its second cell is settled. */
  const RowMid: Matrix := [[5, 5, 5, 5, 5], [5, 0, 1, 4, 5], [5, 5, 5, 5, 5]]

  lemma RowStartFirst(tag: Dir)
    ensures MinAdjacent(RowStart, 1, 1, King, tag).value == 0
  {
    RelaxBound(RowStart, 1, 1, King, tag, 0);
  }

  lemma RowStartSecond(tag: Dir)
    ensures MinAdjacent(RowStart, 1, 2, King, tag) == Relaxed(1, W)
  {
  }

  lemma RowMidThird(tag: Dir)
    ensures MinAdjacent(RowMid, 1, 3, King, tag) == Relaxed(2, W)
  {
  }

  lemma RowStartView(g': Matrix, r: int, c: int)
    requires Shaped(g', 1, 3) && r == 1 && (c == 1 || (c == 2 && g'[1][1] == 0))
    ensures VisitView(RowStart, g', 1, 3, r, c) == RowStart
  {
    var v := VisitView(RowStart, g', 1, 3, r, c);
    SameGrid(v, RowStart, 1, 3);
  }

  lemma RowMidView(g': Matrix, r: int, c: int)
    requires Shaped(g', 1, 3) && g'[1][1] == 0 && g'[1][2] == 1 && r == 1 && c == 3
    ensures VisitView(RowStart, g', 1, 3, r, c) == RowMid
  {
    var v := VisitView(RowStart, g', 1, 3, r, c);
    SameGrid(v, RowMid, 1, 3);
  }
}

=== FILE: walls.dfy ===
/** Groups of cells cut off from the destination: every rule neighbour of
    the group is in the group or blocked, and the group holds the sentinel
    or more. No sweep ever changes such a group, however large it is. */
module Walls {
  import opened Grid
  import opened NeighbourRules
  import opened Sweep
  import opened SweepFacts

  /** Cell x of S is fenced in g: it holds the sentinel or more, and each
      of its rule neighbours is in S or blocked. */
  predicate Fenced(g: Matrix, rows: nat, cols: nat, adj: Adjacency, S: set<(int, int)>, x: (int, int))
    requires Shaped(g, rows, cols) && IsInterior(rows, cols, x.0, x.1)
  {
    && Empty(rows, cols) <= g[x.0][x.1]
    && forall d | d in Neighbours(adj) :: Step(x, d) in S || IsBlocked(rows, cols, Look(g, x.0, x.1, d))
  }

  /** S is walled off in g: a set of interior cells, each fenced. */
  ghost predicate Walled(g: Matrix, rows: nat, cols: nat, adj: Adjacency, S: set<(int, int)>)
    requires Shaped(g, rows, cols)
  {
    forall x | x in S :: IsInterior(rows, cols, x.0, x.1) && Fenced(g, rows, cols, adj, S, x)
  }

  /** A walled-off group keeps its values through a sweep and stays walled
      off: its cells only ever see each other and walls, none of which is
      below the sentinel. */
  lemma SweptKeepsWalled(g: Matrix, t: Directions, g': Matrix, t': Directions, rows: nat, cols: nat,
                         adj: Adjacency, policy: Policy, changes: int, S: set<(int, int)>)
    requires Shaped(g, rows, cols) && Shaped(t, rows, cols)
    requires Swept(g, t, g', t', rows, cols, adj, policy, changes)
    requires Walled(g, rows, cols, adj, S)
    ensures forall x | x in S :: g'[x.0][x.1] == g[x.0][x.1]
    ensures Walled(g', rows, cols, adj, S)
  {
    SweptMonotone(g, t, g', t', rows, cols, adj, policy, changes);
    var P := (i: int, j: int) => !InRange(rows, cols, i, j) || (i, j) !in S || g'[i][j] == g[i][j];
    forall i, j | IsInterior(rows, cols, i, j) && HoldsBefore(P, rows, cols, i, j)
      ensures P(i, j)
    {
      if (i, j) in S {
        assert forall i', j' | InRange(rows, cols, i', j') && Visited(rows, cols, i, j, i', j') && (i', j') in S ::
          g'[i'][j'] == g[i'][j'];
        assert CellSwept(g, t, g', t', rows, cols, adj, policy, i, j);
        if Recomputes(rows, cols, policy, g[i][j]) {
          WalledCell(g, g', rows, cols, adj, t[i][j], S, i, j);
        }
      }
    }
    RowMajor(P, rows, cols, rows + 1, 1);
    forall x | x in S
      ensures g'[x.0][x.1] == g[x.0][x.1]
    {
      assert Visited(rows, cols, rows + 1, 1, x.0, x.1);
    }
    WalledKept(g, g', rows, cols, adj, S);
  }

  /** The rule leaves a sentinel cell of a walled-off group at its value
      when the group's cells visited so far are unchanged and the walls
      stand. */
  lemma WalledCell(g: Matrix, g': Matrix, rows: nat, cols: nat, adj: Adjacency, tag: Dir,
                   S: set<(int, int)>, r: int, c: int)
    requires Shaped(g, rows, cols) && Shaped(g', rows, cols)
    requires Walled(g, rows, cols, adj, S) && (r, c) in S && g[r][c] <= Empty(rows, cols)
    requires forall i, j | InRange(rows, cols, i, j) && IsBlocked(rows, cols, g[i][j]) :: g'[i][j] == g[i][j]
    requires forall i, j | InRange(rows, cols, i, j) && Visited(rows, cols, r, c, i, j) && (i, j) in S ::
               g'[i][j] == g[i][j]
    ensures MinAdjacent(VisitView(g, g', rows, cols, r, c), r, c, adj, tag).value == g[r][c]
  {
    var v := VisitView(g, g', rows, cols, r, c);
    assert v[r][c] == g[r][c];
    assert Fenced(g, rows, cols, adj, S, (r, c));
    assert forall x | x in S :: IsInterior(rows, cols, x.0, x.1) && Empty(rows, cols) <= g[x.0][x.1] by {
      forall x | x in S
        ensures IsInterior(rows, cols, x.0, x.1) && Empty(rows, cols) <= g[x.0][x.1]
      {
        assert Fenced(g, rows, cols, adj, S, x);
      }
    }
    forall d | d in Neighbours(adj)
      ensures v[r][c] <= Look(v, r, c, d)
    {
      WalledNeighbour(g, g', rows, cols, adj, S, r, c, d);
      ViewLook(g, g', rows, cols, r, c, d);
    }
    NoneUndercuts(v, r, c, adj, tag);
  }

  /** Every rule neighbour of a cell of a walled-off group is at the
      sentinel or above, before the sweep and, once visited, after it. */
  lemma WalledNeighbour(g: Matrix, g': Matrix, rows: nat, cols: nat, adj: Adjacency,
                        S: set<(int, int)>, r: int, c: int, d: Dir)
    requires Shaped(g, rows, cols) && Shaped(g', rows, cols)
    requires IsInterior(rows, cols, r, c) && Fenced(g, rows, cols, adj, S, (r, c)) && d in Neighbours(adj)
    requires forall x | x in S :: IsInterior(rows, cols, x.0, x.1) && Empty(rows, cols) <= g[x.0][x.1]
    requires forall i, j | InRange(rows, cols, i, j) && IsBlocked(rows, cols, g[i][j]) :: g'[i][j] == g[i][j]
    requires forall i, j | InRange(rows, cols, i, j) && Visited(rows, cols, r, c, i, j) && (i, j) in S ::
               g'[i][j] == g[i][j]
    ensures var n := Step((r, c), d);
      && InRange(rows, cols, n.0, n.1)
      && Empty(rows, cols) <= g[n.0][n.1]
      && (Visited(rows, cols, r, c, n.0, n.1) ==> Empty(rows, cols) <= g'[n.0][n.1])
  {
    var n := Step((r, c), d);
    assert InRange(rows, cols, n.0, n.1);
    assert Look(g, r, c, d) == g[n.0][n.1];
    if n in S {
      assert IsInterior(rows, cols, n.0, n.1) && Empty(rows, cols) <= g[n.0][n.1];
    } else {
      assert IsBlocked(rows, cols, g[n.0][n.1]);
    }
  }

  /** The sweep's view of the neighbour d of (r, c): the new value if that
      neighbour was visited, the old one otherwise. */
  lemma ViewLook(g: Matrix, g': Matrix, rows: nat, cols: nat, r: int, c: int, d: Dir)
    requires Shaped(g, rows, cols) && Shaped(g', rows, cols) && IsInterior(rows, cols, r, c)
    ensures var n := Step((r, c), d);
      && InRange(rows, cols, n.0, n.1)
      && Look(VisitView(g, g', rows, cols, r, c), r, c, d) ==
           if Visited(rows, cols, r, c, n.0, n.1) then g'[n.0][n.1] else g[n.0][n.1]
  {
    var n := Step((r, c), d);
    assert InRange(rows, cols, n.0, n.1);
  }

  /** The sweep's view of (r, c) itself: the old value, not yet rewritten. */
  lemma ViewCentre(g: Matrix, g': Matrix, rows: nat, cols: nat, r: int, c: int)
    requires Shaped(g, rows, cols) && Shaped(g', rows, cols) && IsInterior(rows, cols, r, c)
    ensures VisitView(g, g', rows, cols, r, c)[r][c] == g[r][c]
  {
  }

  /** A cell none of whose rule neighbours is below it keeps its value. */
  lemma NoneUndercuts(m: Matrix, r: int, c: int, adj: Adjacency, tag: Dir)
    requires Inner(m, r, c)
    requires forall d | d in Neighbours(adj) :: m[r][c] <= Look(m, r, c, d)
    ensures MinAdjacent(m, r, c, adj, tag).value == m[r][c]
  {
    assert IsNeighbourMin(m, r, c, adj, m[r][c]);
    NeighbourMinUnique(m, r, c, adj, MinAdjacent(m, r, c, adj, tag).value, m[r][c]);
  }

  /** A group walled off in g is walled off in any g' that agrees with g on
      the group and on the blocked cells. */
  lemma WalledKept(g: Matrix, g': Matrix, rows: nat, cols: nat, adj: Adjacency, S: set<(int, int)>)
    requires Shaped(g, rows, cols) && Shaped(g', rows, cols)
    requires Walled(g, rows, cols, adj, S)
    requires forall x | x in S :: g'[x.0][x.1] == g[x.0][x.1]
    requires forall i, j | InRange(rows, cols, i, j) && IsBlocked(rows, cols, g[i][j]) :: g'[i][j] == g[i][j]
    ensures Walled(g', rows, cols, adj, S)
  {
    forall x | x in S
      ensures IsInterior(rows, cols, x.0, x.1) && Fenced(g', rows, cols, adj, S, x)
    {
      FencedKept(g, g', rows, cols, adj, S, x);
    }
  }

  lemma FencedKept(g: Matrix, g': Matrix, rows: nat, cols: nat, adj: Adjacency, S: set<(int, int)>, x: (int, int))
    requires Shaped(g, rows, cols) && Shaped(g', rows, cols) && IsInterior(rows, cols, x.0, x.1)
    requires Fenced(g, rows, cols, adj, S, x) && g'[x.0][x.1] == g[x.0][x.1]
    requires forall i, j | InRange(rows, cols, i, j) && IsBlocked(rows, cols, g[i][j]) :: g'[i][j] == g[i][j]
    ensures Fenced(g', rows, cols, adj, S, x)
  {
    forall d | d in Neighbours(adj) && Step(x, d) !in S
      ensures IsBlocked(rows, cols, Look(g', x.0, x.1, d))
    {
      var n := Step(x, d);
      assert InRange(rows, cols, n.0, n.1);
    }
  }

  /** The grid of CutOffPair: one row, destination, wall, two empty cells. */
  const CutOff: Matrix := [[6, 6, 6, 6, 6, 6], [6, 0, 6, 5, 5, 6], [6, 6, 6, 6, 6, 6]]

  /** Two empty cells behind a wall, each the other's neighbour: neither is
      walled in on its own, because each sees the other, a sentinel. */
  lemma CutOffNotEnclosed()
    ensures !Enclosed(CutOff, 1, 4, King, 1, 3) && !Enclosed(CutOff, 1, 4, King, 1, 4)
  {
    assert E in Neighbours(King) && W in Neighbours(King);
    assert Look(CutOff, 1, 3, E) == 5 && Look(CutOff, 1, 4, W) == 5;
  }

  /** Together the two cells are walled off, so they keep the sentinel for
      the whole run. */
  lemma CutOffWalled()
    ensures Walled(CutOff, 1, 4, King, {(1, 3), (1, 4)})
  {
    CutOffFenced(3);
    CutOffFenced(4);
  }

  lemma CutOffFenced(c: int)
    requires c == 3 || c == 4
    ensures Fenced(CutOff, 1, 4, King, {(1, 3), (1, 4)}, (1, c))
  {
    forall d | d in Neighbours(King)
      ensures Step((1, c), d) in {(1, 3), (1, 4)} || IsBlocked(1, 4, Look(CutOff, 1, c, d))
    {
      assert CutOff[0] == CutOff[2] == [6, 6, 6, 6, 6, 6];
    }
  }
}
